=== FILE: README.md ===
# Watten score keeping, modelled in Dafny

This project models the score-keeping core of a Watten card-game scorer. It has four layers:

- A **round** is the live escalation state machine. It starts at 2 points. The two teams take turns raising it, each up to its own limit. A team that raises at or above its limit forfeits the round to the other team.
- A **round result** is the immutable `{points, winner}` record of a finished round.
- A **game** files round results in play order until one team reaches the goal. It then computes the winner and the bonus:
  - 1 for a regular win;
  - 2 if the winner was the "tailor";
  - 4 if the loser was.

  The tailor is the winner of the first round after which one side has at least `goal - 2` points and the other has none. Each new round gets limits of `max(goal - own points, 2)`.
- A **session** keeps the finished games and at most one live game. Its totals are punitive: each game's bonus is credited to the team that lost it.

Each layer also has a structural export and a record loader. The loader validates field by field and separates three error kinds:

- TypeError, for a wrong shape;
- RangeError, for a number outside its domain;
- a plain Error, for a broken cross-field invariant. The model calls this `InvariantError`.

## How the model is built

- `Json.Value` stands for the JavaScript values a record can hold. Numbers are exact rationals (`real`), so NaN and the infinities do not exist in the model.
  - `IsObjectLike` is `typeof v === "object"`, which also holds for `null` and arrays.
  - `HasKey` is the `in` operator.
  - `Get` yields `Undefined` for a missing key.
- Teams are encoded as the enum numbers 1 ("we") and 2 ("they").
- Every operation is a pure function that returns `Result<T>`, that is, either the new value or the error kind the source throws. A rejected operation changes nothing, exactly as a throw before any assignment does in the source.
- The `EventTarget` notifications become direct calls:
  - winning or forfeiting the live round calls `Games.RoundFinished`;
  - a game change calls `Sessions.GameChanged`.
- The class invariants are `Rounds.Valid`, `Games.Valid` and `Sessions.Valid`. The source keeps them by encapsulation. Here the play operations require them and prove that they are preserved. `Storable` additionally asks for the integral goal and limits that the loaders insist on.
- `Tallies` holds the game's aggregation loop as a walk over prefixes. It is proved equal to independent reference definitions:
  - `PointsOf`, the sum of the rounds a team won;
  - `TailoredBy` and `Untailored`, the winner of the first qualifying round.
- Three places where the source does not do what it evidently intends are modelled twice: once as written and once corrected (see "## Findings"). The rest of the model uses the corrected versions.
- Where the tests and the code disagree, the model follows the code:
  - The tests expect the round export to name its limits `weLimit`/`theyLimit`. The code writes `ourLimit`/`theirLimit` (models/round.js:168-169).
  - The tests call a method `round.won(...)` that does not exist. The model's entry point is the `winner` setter (models/round.js:94-102).
  - The tests expect the round-result loader to check for an integer of at least 2. The code only checks that `points` is a number (models/round_result.js:24-26).
- A session goal of 1 passes the goal setter. The first round of the next game would then need limits of 1, so `anotherGame` fails with a RangeError. `Sessions.AnotherGame` models exactly this.
- A fresh round or game accepts non-integral limits or goals. Its export is then rejected by its own loader. `Rounds.RoundTrip` states this as an if-and-only-if.

## Model

| member | source | states |
|---|---|---|
| Teams.Other | models/round.js:136-144 | the opponent of a team is the other team |
| Teams.Encode | models/round.js:6-11 | "we" is stored as the number 1, "they" as an integral number distinct from it |
| Teams.Decode | models/round.js:17-19 | a value names a team exactly when `isTeam` accepts it, and it is then that team's encoding |
| Teams.DecodeEncode | models/round.js:6-19 | every team's encoding passes `isTeam` and decodes to the same team |
| Teams.EncodeOptional | models/round.js:71-79 | an optional team is stored as `null` when absent and as its enum number when present |
| Rounds.Start | models/round.js:40-79 | a fresh round is worth 2, is undecided, has no last raiser, carries the given limits, and lets both teams raise |
| Rounds.New | models/round.js:44-61 | no arguments give the default round with limits 11; two numbers give a fresh round (2 points, no winner, no last raiser) with those limits, or RangeError when either is below 2; one object is loaded as a record; every other shape is a TypeError |
| Rounds.Decided | models/round.js:104-121 | a round is decided exactly when neither team can raise any more |
| Rounds.CanRaise | models/round.js:117-121 | a non-team is a TypeError; otherwise a team can raise exactly when the round is undecided and it did not raise last |
| Rounds.SetWinner | models/round.js:94-102 | only an actual team can win (TypeError); a decided round cannot be won again (Error); otherwise only the winner changes |
| Rounds.RaiseBy | models/round.js:130-148 | a team that cannot raise changes nothing; at or above its own limit it forfeits to the other team with the points unchanged; otherwise the points grow by exactly 1, it becomes the last raiser and only the other team can raise next; limits never move and points never fall |
| Rounds.Raise | models/round.js:130-134 | a non-team is a TypeError; a team raises as described for `RaiseBy` |
| Rounds.PlayKeepsRoundShape | models/round.js:94-148 | over any sequence of raises and wins the round stays valid, its points never decrease and grow by at most one per step, and its limits never change |
| Rounds.DecidedRoundIsFrozen | models/round.js:94-134 | once decided, no sequence of interactions changes a round, so the winner is set at most once |
| Rounds.ToStruct | models/round.js:163-171 | the export has exactly the five fields `points`, `raisedLast`, `winner`, `ourLimit`, `theirLimit`, holding the round's values |
| Rounds.FromStruct | models/round.js:173-207 | a record loads exactly when it is an object with integral `points` of at least 2, present `raisedLast` and `winner` that are null or a team, and integral limits of at least 2; checked in the source's field order, a wrong shape or a missing or non-team `raisedLast`/`winner` is a TypeError and a non-integral or too small number a RangeError; there are no cross-field checks |
| Rounds.RoundTrip | models/round.js:150-207 | exporting and loading a round gives the same round exactly when it is valid (at least 2 points, limits of at least 2) and its limits are integral |
| Rounds.ReexportMatchesRecord | models/round.js:163-207 | exporting a loaded round reproduces all five fields of the record |
| RoundResults.New | models/round_result.js:15-35 | a number and a team give that result; otherwise one object is loaded as a record; every other shape is the "unknown form" TypeError |
| RoundResults.ToJson | models/round_result.js:52-57 | the export has exactly the two fields `points` and `winner` |
| RoundResults.FromStruct | models/round_result.js:21-32 | a record loads exactly when `points` is present and a number and `winner` is present and a team; every rejection is a TypeError |
| RoundResults.FromStructAsWritten | models/round_result.js:21-32 | as written, a present but non-numeric `points` raises a ReferenceError; it accepts the same records as the corrected loader |
| RoundResults.MisspeltExceptionClass | models/round_result.js:24-25 | the written and the corrected loader differ exactly on records whose `points` is present but not a number, as `{points: "4", winner: 2}` shows |
| RoundResults.RoundTrip | models/round_result.js:38-57 | every result exported and loaded, directly or through the constructor, is the same result |
| RoundResults.ReexportMatchesRecord | models/round_result.js:21-57 | exporting a loaded result reproduces the record's `points` and `winner` |
| Tallies.Step | models/game.js:76-88 | one loop step adds the round's points to its winner only, and never replaces a tailor once one is found |
| Tallies.Scan | models/game.js:71-88 | the loop's totals are each team's sum over the rounds it won |
| Tallies.ScanFindsTailor | models/game.js:73-88 | the loop records no tailor exactly when no round meets the threshold, and otherwise records the winner of the first round after which it does |
| Games.ResultOf | models/game.js:69-114 | both totals at or above the goal is an Error; while both are below it the winner is null and the bonus 0; otherwise the winner is the side at the goal, with bonus 2 exactly when it was the tailor, 4 exactly when the loser was, and 1 exactly when there was none |
| Games.NextRound | models/game.js:126-129 | a next round is undecided, worth 2 and has no last raiser, so either team may raise first; each team's limit is the points it still lacks, but at least 2 |
| Games.New | models/game.js:50-67 | no argument gives goal 11; a number gives that goal, with RangeError below 1 and, through the first round's limits, below 2; a fresh game is valid and undecided with both limits equal to the goal; an object is loaded; anything else is a TypeError |
| Games.RoundFinished | models/game.js:116-135 | the won round is appended as `{points, winner}` and earlier results are kept; an undecided game gets the next round; the game stays valid, so the live round is absent exactly when the game is decided |
| Games.SetWinner | models/game.js:116-135 | winning the live round succeeds exactly when the team is real and the round undecided; the round is filed as `{points, winner}` and the game continues exactly as after that round finishes, with the next round opened from the new totals or the game finished |
| Games.Raise | models/game.js:116-135 | a raise that forfeits the live round files it as won by the other team and continues exactly as after that round finishes; any other accepted raise only updates the live round |
| Games.Apply | models/game.js:116-135 | any accepted interaction keeps the game valid, keeps the goal and the earlier results, and files at most one round |
| Games.Play | models/game.js:96-135 | over any sequence of interactions the game stays valid (so two winners never arise), earlier results never change, and a finished game never changes again |
| Games.FreshGameIsLive | models/game.js:50-61 | a fresh game with a goal of at least 2 is valid and undecided |
| Games.FirstRoundOfFreshGame | models/game.js:116-135 | the first win files a 2-point result; it finishes the game exactly when the goal is at most 2, and otherwise opens the next round, whose limit is `max(goal - 2, 2)` for the winner and `goal` for the loser |
| Games.ToStruct | models/game.js:152-159 | corrected export: exactly the keys goal, rounds and currentRound, holding the goal, every filed round's `{points, winner}` record in order, and the live round's record or null |
| Games.ToStructAsWritten | models/game.js:152-159 | as written, the export succeeds exactly when no round has been filed yet, and then agrees with the corrected export; otherwise it always fails with a TypeError |
| Games.ExportAfterFirstRound | models/game.js:152-159 | after the first filed round the export as written fails with a TypeError, while the corrected export loads back to the same game |
| Games.LoadRounds | models/game.js:176 | the rounds array loads exactly when every entry passes the round-result constructor, entry by entry; on failure the first failing entry gives the error |
| Games.Fields | models/game.js:162-176 | in the source's order, `goal` must be a number (TypeError) and an integer of at least 1 (RangeError), `rounds` must be an array (TypeError), and the first failing round record gives the error; the fields pass exactly when all of these hold, extra keys being ignored |
| Games.FromStruct | models/game.js:161-189 | the per-field errors come first; a `currentRound` that is not an object or null is a TypeError; a live round record that fails to load gives the round loader's own error; every loaded game is storable, carries the record's goal and rounds, and its live round is the load of `currentRound`, present exactly when that is not null |
| Games.LoadEnforcesLiveRoundIffUndecided | models/game.js:178-188 | after the field checks, loading fails with a plain Error exactly when the totals give two winners, an ongoing game has no live round or a finished game has one; it succeeds exactly when the totals give at most one winner and `currentRound` is null for a finished game and a loadable round record for an ongoing one |
| Games.RoundTrip | models/game.js:139-189 | every valid game with an integral goal and integral limits is exported and loaded back unchanged, through the loader and through the constructor |
| Games.PlayKeepsStorable | models/game.js:124-159 | over any sequence of interactions a storable game whose filed rounds are worth whole numbers of points stays storable, so its export can always be loaded again |
| Games.ReloadIsStable | models/game.js:139-189 | a loaded game re-exports to a record that loads to the same game |
| Sessions.New | models/session.js:19-121 | no argument gives goal 11, empty labels, no games, no live game and no id; an object is loaded; anything else is a TypeError; every session built is valid |
| Sessions.SetGoal | models/session.js:34-41 | a non-number is a TypeError; a non-integer or a value below 1 is a RangeError; otherwise only the goal changes, so running games are unaffected |
| Sessions.AnotherGame | models/session.js:72-79 | with a live game nothing changes; otherwise a fresh game with the session goal starts, or RangeError when the goal is below 2 |
| Sessions.Penalty | models/session.js:89-96 | a finished game's bonus, from 1 to 4, is credited to the team that lost it |
| Sessions.Penalties | models/session.js:85-99 | the totals over the finished games are non-negative and between one and four points per game |
| Sessions.ResultOf | models/session.js:85-99 | each team's total is the sum of the bonuses of the finished games it lost, so a session without finished games has 0/0, and the totals lie between one and four points per finished game |
| Sessions.PenaltiesAreBonusesLost | models/session.js:85-99 | each team's total is the sum of the bonuses of the finished games it lost, counted from the first game on |
| Sessions.FilingCreditsTheLoser | models/session.js:85-109 | filing one more finished game adds its bonus to the loser's total and leaves the winner's total unchanged |
| Sessions.GameChanged | models/session.js:101-109 | a decided live game is appended to the finished games and the live game cleared; an undecided one stays live; nothing else changes and validity is kept |
| Sessions.SetWinner | models/session.js:101-109 | winning the live round is the game's own win; if that decides the game it is appended to the finished games and the live game cleared, otherwise it stays live; goal, id and labels are kept and the session stays valid |
| Sessions.Raise | models/session.js:101-109 | a raise is the game's own raise; if it decides the game (a forfeit) the game is appended to the finished games and the live game cleared, otherwise it stays live; goal, id and labels are kept and the session stays valid |
| Sessions.SetWinnerKeepsStorable | models/session.js:101-150 | winning a round keeps a storable session storable, so its export loads again, provided the live game's filed rounds are worth whole numbers of points; the result again has that property |
| Sessions.RaiseKeepsStorable | models/session.js:101-150 | raising keeps a storable session storable, provided the live game's filed rounds are worth whole numbers of points; the result again has that property |
| Sessions.AnotherGameKeepsStorable | models/session.js:72-79 | starting another game keeps any storable session storable, and keeps the live game's filed rounds worth whole numbers of points when they were |
| Sessions.SetWinnerAsWritten | models/session.js:73-109 | as written, a won round never moves the game into the finished games |
| Sessions.UnfiledGameBreaksInvariant | models/session.js:73-109 | whenever a win decides the live game, the session as written keeps a finished game live, which breaks the invariant and blocks `anotherGame`; the direct call files it |
| Sessions.FirstDecisiveRoundAsWritten | models/session.js:73-79 | with goal 2, a session's first won round decides its game, so the gap above is reachable |
| Sessions.ToStruct | models/session.js:136-150 | the export has goal, both labels, every finished game's record and the live game's record or null, with the session's values, and an `id` key exactly when the session has an id |
| Sessions.LoadGames | models/session.js:184 | the games array loads exactly when every entry passes the game constructor, entry by entry; on failure the first failing entry gives the error |
| Sessions.LoadId | models/session.js:157-164 | without an `id` key the id is null; an `id` key, even holding `undefined`, must hold a number (TypeError) that is an integer (RangeError), and an integral id is accepted as that integer |
| Sessions.Header | models/session.js:152-184 | the checks up to the games array in the source's order: a non-object is a TypeError, then the id and goal with their TypeError and RangeError cases, then each label must be a string and `games` an array (TypeError), then the first game that fails to load gives the error; on success the header carries the record's id, goal, labels and loaded games |
| Sessions.FromStruct | models/session.js:152-196 | the header's errors come first; a history with an unfinished game is an Error; a `currentGame` that is not an object or null is a TypeError, and one that fails to load gives the game loader's own error; every loaded session is storable, carries the header's id, goal, labels and games, and has a live game exactly when `currentGame` is not null, loaded from that record |
| Sessions.LoadEnforcesFinishedHistory | models/session.js:184-195 | after the header, loading fails with a plain Error exactly when a past game is unfinished, or the current game is finished or its own load fails that way; it succeeds exactly when every past game is finished and the current game is null or loads unfinished |
| Sessions.UnfinishedPastGameIsRejected | models/session.js:184-187 | a record whose only past game is a fresh game of goal at least 2 is rejected with a plain Error |
| Sessions.FinishedGameWasLoaded | models/session.js:184-187 | a decided game out of the game constructor has an integral goal and limits, since only a loaded game can be decided |
| Sessions.GamesRoundTrip | models/session.js:141-184 | the finished games' records load back to the same games |
| Sessions.RoundTrip | models/session.js:123-196 | every valid session with integral goals and limits is exported and loaded back unchanged, with its id, goal, labels, games, live game and therefore its result |
| Sessions.ReloadIsStable | models/session.js:136-196 | a loaded record with or without an id re-exports to a record that loads to the same session, and keeps the id key exactly when the record had it |

## Left out

- Games.PlayKeepsStorable: it needs the filed rounds to be worth whole numbers of points. The round-result loader accepts any number for `points` (models/round_result.js:24), and a non-integral total gives the next round a non-integral limit (models/game.js:127-129) that the round loader rejects (models/round.js:198-199), so a loaded game can reach a state whose export does not load.
- Sessions.SetWinnerKeepsStorable: it needs the live game's filed rounds to be worth whole numbers of points, for the reason given for Games.PlayKeepsStorable. A loaded session whose live game holds a 2.5-point round is storable, but after the next win it is not.
- Sessions.RaiseKeepsStorable: it needs the live game's filed rounds to be worth whole numbers of points, for the reason given for Games.PlayKeepsStorable.
- Browser persistence is not part of this model. That covers the IndexedDB lifecycle, the session repository, its transactions and its change listeners: these are asynchronous I/O.
- The user interface is left out: it renders views and has no score-keeping logic.
- Assigning a session id is left out. The repository does it on first save; here the id is only carried and validated.
- `EventTarget` listener bookkeeping, meaning adding and removing listeners and dispatching events, is not modelled. Notifications are direct calls, so the re-subscription gap for restored rounds and games cannot arise (models/game.js:185, models/session.js:192).
- JavaScript floating point is left out: NaN, the infinities, `-0` and rounding. Numbers are exact rationals.
- Exception message texts are left out. Only the error kind is modelled.
- Values that JavaScript allows but the model's types exclude are not modelled: a winner that is not a team inside a round, or a round result whose winner is not a team. The loaders and setters reject these before they are stored.
- Rounds.ToStruct: it writes the field names the code uses, `ourLimit` and `theirLimit`. The tests' `weLimit` and `theyLimit` are not modelled.
- RoundResults.FromStruct: it does not add the integer and at-least-2 checks on `points` that the tests expect, because the code does not make them.

## Findings

| source | as written | input that shows it | evidently intended | confidence | as-written member | corrected member |
|---|---|---|---|---|---|---|
| models/round_result.js:24-25 | the record form throws `new TypeEror(...)`, a class that does not exist, so a non-numeric `points` raises a ReferenceError | the record `{points: "4", winner: 2}` | a TypeError, like every other rejection of this loader | high, not executed | RoundResults.FromStructAsWritten | RoundResults.FromStruct |
| models/game.js:155 | the export calls `r.toStruct()` on each round result, but round results only define `toJSON` | any game after its first won round, for example goal 11 and "we" winning once | each round exported as its `{points, winner}` record, so the game reloads to itself | high, not executed | Games.ToStructAsWritten | Games.ToStruct |
| models/session.js:76-77,103-105 | the session listens for `Game.EVENT_CHANGE` and reads `.decided`, and the game defines neither, so a decided game is never filed | a session with goal 2 whose first round is won (models/session.test.js:53-74 expects the filing) | a decided live game moves into the finished games and the live game is cleared | high, not executed | Sessions.SetWinnerAsWritten | Sessions.SetWinner |

=== FILE: game.dfy ===
/** A single game of Watten: finished round results in play order plus at
    most one live round, played until a team reaches the goal. */
module Games {
  import opened Json
  import opened Results
  import opened Teams
  import opened RoundResults
  import opened Tallies
  import Rounds

  const DefaultGoal: real := 11.0

  datatype Game = Game(goal: real, rounds: seq<RoundResult>, currentRound: Option<Rounds.Round>)

  /** The game's `result`: the winner (if any), the bonus it earns, and both
      totals. */
  datatype Standing = Standing(winner: Option<Team>, points: int, ourPoints: real, theirPoints: real)

  /** The threshold of the tailor rule. */
  function TailorGoal(goal: real): real {
    goal - 2.0
  }

  /** Reverse tailor 4, tailor 2, regular win 1. */
  function Bonus(tailor: Option<Team>, winner: Team): int {
    if tailor.Some? && tailor.value != winner then 4
    else if tailor.Some? && tailor.value == winner then 2
    else 1
  }

  /** The aggregate result. Undecided while both totals are below the goal;
      both at or above it is an invariant violation. Once decided the bonus
      is 2 if the winner was the tailor, 4 if the loser was, 1 if nobody was. */
  function ResultOf(g: Game): (res: Result<Standing>)
    ensures res.Err? <==> PointsOf(g.rounds, We) >= g.goal && PointsOf(g.rounds, They) >= g.goal
    ensures res.Err? ==> res.error == InvariantError
    ensures res.Ok? ==>
      res.value.ourPoints == PointsOf(g.rounds, We) && res.value.theirPoints == PointsOf(g.rounds, They)
    ensures (res.Ok? && res.value.winner.None?) <==>
      PointsOf(g.rounds, We) < g.goal && PointsOf(g.rounds, They) < g.goal
    ensures res.Ok? && res.value.winner.None? ==> res.value.points == 0
    ensures res.Ok? && res.value.winner.Some? ==>
      var w := res.value.winner.value;
      && PointsOf(g.rounds, w) >= g.goal && PointsOf(g.rounds, Other(w)) < g.goal
      && (res.value.points == 2 <==> TailoredBy(g.rounds, TailorGoal(g.goal), w))
      && (res.value.points == 4 <==> TailoredBy(g.rounds, TailorGoal(g.goal), Other(w)))
      && (res.value.points == 1 <==> Untailored(g.rounds, TailorGoal(g.goal)))
  {
    var tally := Scan(g.rounds, TailorGoal(g.goal));
    ScanFindsTailor(g.rounds, TailorGoal(g.goal));
    var weWon := tally.ourPoints >= g.goal;
    var theyWon := tally.theirPoints >= g.goal;
    if !weWon && !theyWon then
      Ok(Standing(None, 0, tally.ourPoints, tally.theirPoints))
    else if weWon && theyWon then
      Err(InvariantError)
    else
      var winner := if weWon then We else They;
      Ok(Standing(Some(winner), Bonus(tally.tailor, winner), tally.ourPoints, tally.theirPoints))
  }

  predicate Decided(g: Game) {
    ResultOf(g).Ok? && ResultOf(g).value.winner.Some?
  }

  /** What construction, loading and play keep: a goal of at least 1, a
      computable result, a live round exactly while the game is undecided. */
  predicate Valid(g: Game) {
    && g.goal >= 1.0
    && ResultOf(g).Ok?
    && (g.currentRound.None? <==> Decided(g))
    && (g.currentRound.Some? ==> Rounds.Valid(g.currentRound.value))
  }

  /** A valid game whose export its loader accepts again. */
  predicate Storable(g: Game) {
    && Valid(g)
    && IsInteger(g.goal)
    && (g.currentRound.Some? ==> Rounds.Storable(g.currentRound.value))
  }

  function Max(a: real, b: real): real {
    if a >= b then a else b
  }

  /** The round that follows an undecided tally: each team may raise up to
      the points it still lacks, but never below 2. */
  function NextRound(goal: real, ourPoints: real, theirPoints: real): (r: Rounds.Round)
    ensures !Rounds.Decided(r) && Rounds.Valid(r) && r.points == Rounds.StartingPoints
    ensures r.raisedLast.None? && Rounds.MayRaise(r, We) && Rounds.MayRaise(r, They)
    ensures r.ourLimit >= goal - ourPoints && r.theirLimit >= goal - theirPoints
    ensures r.ourLimit == 2.0 || r.ourLimit == goal - ourPoints
    ensures r.theirLimit == 2.0 || r.theirLimit == goal - theirPoints
  {
    Rounds.Start(Max(goal - ourPoints, 2.0), Max(goal - theirPoints, 2.0))
  }

  /** The `Game` constructor: no argument (goal 11), a numeric goal, or a
      record. A goal below 1 is a RangeError, and so is a goal below 2,
      through the first round's limits. */
  function New(v: Value): (res: Result<Game>)
    ensures res.Ok? ==> Valid(res.value)
    ensures v.Undefined? ==>
      res == Ok(Game(DefaultGoal, [], Some(Rounds.Start(DefaultGoal, DefaultGoal))))
    ensures v.Num? ==> (res.Ok? <==> v.n >= 2.0) && (res.Err? ==> res.error == RangeError)
    ensures v.Num? && res.Ok? ==>
      res.value == Game(v.n, [], Some(Rounds.Start(v.n, v.n)))
    ensures (v.Undefined? || v.Num?) && res.Ok? ==> !Decided(res.value)
    ensures IsObjectLike(v) ==> res == FromStruct(v)
    ensures !v.Undefined? && !v.Num? && !IsObjectLike(v) ==> res == Err(TypeError)
  {
    if v.Undefined? || v.Num? then
      var goal := if v.Num? then v.n else DefaultGoal;
      if goal < 1.0 then Err(RangeError)
      else
        var round :- Rounds.New(Num(goal), Num(goal));
        Ok(Game(goal, [], Some(round)))
    else if IsObjectLike(v) then
      FromStruct(v)
    else
      Err(TypeError)
  }

  /** `#handleRoundFinished`: file the won round, then either open the next
      round or leave the game finished with no live round. */
  function RoundFinished(g: Game, finished: Rounds.Round): (g': Game)
    requires Valid(g) && g.currentRound.Some? && finished.winner.Some?
    ensures Valid(g')
    ensures g'.goal == g.goal
    ensures g'.rounds == g.rounds + [RoundResult(finished.points as real, finished.winner.value)]
    ensures !Decided(g') ==>
      g'.currentRound == Some(NextRound(g.goal, PointsOf(g'.rounds, We), PointsOf(g'.rounds, They)))
  {
    var rr := RoundResult(finished.points as real, finished.winner.value);
    var filed := Game(g.goal, g.rounds + [rr], None);
    PointsOfAppend(g.rounds, rr, We);
    PointsOfAppend(g.rounds, rr, They);
    assert ResultOf(filed).Ok?;
    var standing := ResultOf(filed).value;
    if standing.winner.None? then
      filed.(currentRound := Some(NextRound(g.goal, standing.ourPoints, standing.theirPoints)))
    else
      filed
  }

  /** Setting the winner of the live round through its `winner` setter,
      with the game notified directly. */
  function SetWinner(g: Game, t: Value): (res: Result<Game>)
    requires Valid(g)
    ensures g.currentRound.None? ==> res == Err(TypeError)
    ensures g.currentRound.Some? ==> (res.Ok? <==> IsTeam(t) && !Rounds.Decided(g.currentRound.value))
    ensures res.Ok? ==>
      && Valid(res.value)
      && res.value.goal == g.goal
      && res.value.rounds == g.rounds + [RoundResult(g.currentRound.value.points as real, Decode(t).value)]
    ensures res.Ok? ==>
      res.value == RoundFinished(g, g.currentRound.value.(winner := Some(Decode(t).value)))
  {
    if g.currentRound.None? then Err(TypeError)
    else
      var won :- Rounds.SetWinner(g.currentRound.value, t);
      Ok(RoundFinished(g, won))
  }

  /** Raising in the live round through its `raise` method; a forfeit
      finishes the round and files it like any other win. */
  function Raise(g: Game, t: Value): (res: Result<Game>)
    requires Valid(g)
    ensures g.currentRound.None? ==> res == Err(TypeError)
    ensures g.currentRound.Some? ==> (res.Ok? <==> IsTeam(t))
    ensures res.Ok? ==> Valid(res.value) && res.value.goal == g.goal
    ensures res.Ok? ==>
      var before := g.currentRound.value;
      var after := Rounds.RaiseBy(before, Decode(t).value);
      if !Rounds.Decided(before) && Rounds.Decided(after) then
        && res.value.rounds == g.rounds + [RoundResult(after.points as real, after.winner.value)]
        && res.value == RoundFinished(g, after)
      else
        res.value.rounds == g.rounds && res.value.currentRound == Some(after)
  {
    if g.currentRound.None? then Err(TypeError)
    else
      var before := g.currentRound.value;
      var after :- Rounds.Raise(before, t);
      if !Rounds.Decided(before) && Rounds.Decided(after) then Ok(RoundFinished(g, after))
      else Ok(g.(currentRound := Some(after)))
  }

  function Apply(g: Game, a: Rounds.Action): (res: Result<Game>)
    requires Valid(g)
    ensures res.Ok? ==> Valid(res.value) && res.value.goal == g.goal && g.rounds <= res.value.rounds
    ensures res.Ok? ==> |res.value.rounds| <= |g.rounds| + 1
  {
    match a
    case Raising(t) => Raise(g, t)
    case Winning(t) => SetWinner(g, t)
  }

  /** A sequence of interactions with the live rounds; a rejected one leaves
      the game as it was. Earlier results are never changed, the invariant
      holds throughout (so both teams can never reach the goal together),
      and a finished game never changes again. */
  function Play(g: Game, acts: seq<Rounds.Action>): (g': Game)
    requires Valid(g)
    ensures Valid(g') && g'.goal == g.goal
    ensures g.rounds <= g'.rounds && |g'.rounds| <= |g.rounds| + |acts|
    ensures Decided(g) ==> g' == g
    decreases |acts|
  {
    if |acts| == 0 then g
    else
      var next := Apply(g, acts[0]);
      Play(if next.Ok? then next.value else g, acts[1..])
  }

  /** Every filed round is worth a whole number of points. Play only files
      such rounds; a loaded record may carry others, since the round-result
      loader accepts any number. */
  predicate IntegralRounds(rounds: seq<RoundResult>) {
    forall i :: 0 <= i < |rounds| ==> IsInteger(rounds[i].points)
  }

  lemma {:induction false} PointsOfIntegral(rounds: seq<RoundResult>, t: Team)
    requires IntegralRounds(rounds)
    ensures IsInteger(PointsOf(rounds, t))
    decreases |rounds|
  {
    if |rounds| > 0 {
      assert IntegralRounds(rounds[1..]) by {
        assert forall i :: 0 <= i < |rounds| - 1 ==> rounds[1..][i] == rounds[i + 1];
      }
      PointsOfIntegral(rounds[1..], t);
      assert IsInteger(Credit(rounds[0], t));
      IntegerArithmetic(Credit(rounds[0], t), PointsOf(rounds[1..], t));
    }
  }

  /** With an integral goal and integral totals the next round's limits are
      integral, so its export loads again. */
  lemma NextRoundIsStorable(goal: real, ourPoints: real, theirPoints: real)
    requires IsInteger(goal) && IsInteger(ourPoints) && IsInteger(theirPoints)
    ensures Rounds.Storable(NextRound(goal, ourPoints, theirPoints))
  {
    IntegerArithmetic(goal, ourPoints);
    IntegerArithmetic(goal, theirPoints);
  }

  /** Filing a won round keeps a storable game with integral round points
      storable. */
  lemma RoundFinishedKeepsStorable(g: Game, finished: Rounds.Round)
    requires Storable(g) && IntegralRounds(g.rounds) && g.currentRound.Some? && finished.winner.Some?
    ensures Storable(RoundFinished(g, finished)) && IntegralRounds(RoundFinished(g, finished).rounds)
  {
    var g' := RoundFinished(g, finished);
    assert IntegralRounds(g'.rounds) by {
      assert forall i :: 0 <= i < |g.rounds| ==> g'.rounds[i] == g.rounds[i];
      assert (finished.points as real).Floor == finished.points;
    }
    if !Decided(g') {
      PointsOfIntegral(g'.rounds, We);
      PointsOfIntegral(g'.rounds, They);
      NextRoundIsStorable(g.goal, PointsOf(g'.rounds, We), PointsOf(g'.rounds, They));
    }
  }

  /** One accepted interaction keeps a storable game with integral round
      points storable. */
  lemma ApplyKeepsStorable(g: Game, a: Rounds.Action)
    requires Storable(g) && IntegralRounds(g.rounds)
    ensures Apply(g, a).Ok? ==> Storable(Apply(g, a).value) && IntegralRounds(Apply(g, a).value.rounds)
  {
    if Apply(g, a).Ok? {
      var before := g.currentRound.value;
      match a
      case Winning(t) =>
        var won := Rounds.SetWinner(before, t).value;
        RoundFinishedKeepsStorable(g, won);
      case Raising(t) =>
        var after := Rounds.RaiseBy(before, Decode(t).value);
        if !Rounds.Decided(before) && Rounds.Decided(after) {
          RoundFinishedKeepsStorable(g, after);
        }
    }
  }

  /** Over any sequence of interactions, a storable game whose rounds are
      worth whole numbers of points stays storable, so its export can always
      be loaded again. */
  lemma {:induction false} PlayKeepsStorable(g: Game, acts: seq<Rounds.Action>)
    requires Storable(g) && IntegralRounds(g.rounds)
    ensures Storable(Play(g, acts)) && IntegralRounds(Play(g, acts).rounds)
    decreases |acts|
  {
    if |acts| > 0 {
      ApplyKeepsStorable(g, acts[0]);
      var next := Apply(g, acts[0]);
      PlayKeepsStorable(if next.Ok? then next.value else g, acts[1..]);
    }
  }

  /** The round results of a game as a record array. */
  function RoundRecords(rounds: seq<RoundResult>): (items: seq<Value>)
    ensures |items| == |rounds|
    ensures forall i :: 0 <= i < |rounds| ==> items[i] == ToJson(rounds[i])
  {
    seq(|rounds|, i requires 0 <= i < |rounds| => ToJson(rounds[i]))
  }

  /** `toStruct`, with each finished round exported as its `{points, winner}`
      record. */
  function ToStruct(g: Game): (v: Value)
    ensures v.Obj? && v.fields.Keys == {"goal", "rounds", "currentRound"}
    ensures Get(v, "goal") == Num(g.goal)
    ensures Get(v, "rounds").Arr? && |Get(v, "rounds").items| == |g.rounds|
    ensures forall i :: 0 <= i < |g.rounds| ==> Get(v, "rounds").items[i] == ToJson(g.rounds[i])
    ensures Get(v, "currentRound").Null? <==> g.currentRound.None?
    ensures g.currentRound.Some? ==> Get(v, "currentRound") == Rounds.ToStruct(g.currentRound.value)
  {
    Obj(map[
      "goal" := Num(g.goal),
      "rounds" := Arr(RoundRecords(g.rounds)),
      "currentRound" := if g.currentRound.Some? then Rounds.ToStruct(g.currentRound.value) else Null])
  }

  /** `toStruct` as written: it calls `toStruct()` on each finished round,
      which RoundResult does not define, so exporting a game that has
      finished rounds throws a TypeError. */
  function ToStructAsWritten(g: Game): (res: Result<Value>)
    ensures res.Ok? <==> |g.rounds| == 0
    ensures res.Err? ==> res.error == TypeError
    ensures res.Ok? ==> res.value == ToStruct(g)
  {
    if |g.rounds| > 0 then Err(TypeError) else Ok(ToStruct(g))
  }

  /** Totals of a game that has played a single round. */
  lemma SingleRoundPoints(rr: RoundResult)
    ensures PointsOf([rr], rr.winner) == rr.points
    ensures PointsOf([rr], Other(rr.winner)) == 0.0
  {
    assert [rr][1..] == [];
  }

  /** A game fresh from the constructor with a goal of at least 2 is valid
      and undecided. */
  lemma FreshGameIsLive(goal: real)
    requires goal >= 2.0
    ensures Valid(Game(goal, [], Some(Rounds.Start(goal, goal))))
    ensures !Decided(Game(goal, [], Some(Rounds.Start(goal, goal))))
  {
    var g := Game(goal, [], Some(Rounds.Start(goal, goal)));
    assert PointsOf(g.rounds, We) == 0.0 && PointsOf(g.rounds, They) == 0.0;
  }

  /** Winning the first round of a fresh game files a 2-point result; it
      decides the game exactly when the goal is at most 2, and otherwise the
      next round's limits are the points each team still lacks. */
  lemma FirstRoundOfFreshGame(goal: real, t: Team)
    requires goal >= 2.0
    ensures var played := SetWinner(Game(goal, [], Some(Rounds.Start(goal, goal))), Encode(t));
      && played.Ok?
      && played.value.rounds == [RoundResult(2.0, t)]
      && (Decided(played.value) <==> goal <= 2.0)
      && (goal > 2.0 ==> played.value.currentRound == Some(
            if t == We then NextRound(goal, 2.0, 0.0) else NextRound(goal, 0.0, 2.0)))
  {
    var g := Game(goal, [], Some(Rounds.Start(goal, goal)));
    FreshGameIsLive(goal);
    DecodeEncode(t);
    var won := Rounds.Start(goal, goal).(winner := Some(t));
    assert Rounds.SetWinner(g.currentRound.value, Encode(t)) == Ok(won);
    var played := RoundFinished(g, won);
    assert SetWinner(g, Encode(t)) == Ok(played);
    var rr := RoundResult(2.0, t);
    SingleRoundPoints(rr);
    assert ResultOf(played).Ok?;
  }

  /** For every integral goal, a game with one finished round already
      breaks the export as written, while the corrected export loads back
      to the same game. */
  lemma ExportAfterFirstRound(goal: real, t: Team)
    requires goal >= 2.0 && IsInteger(goal)
    ensures var played := SetWinner(Game(goal, [], Some(Rounds.Start(goal, goal))), Encode(t));
      && played.Ok?
      && ToStructAsWritten(played.value) == Err(TypeError)
      && FromStruct(ToStruct(played.value)) == Ok(played.value)
  {
    FirstRoundOfFreshGame(goal, t);
    FreshGameIsLive(goal);
    var played := SetWinner(Game(goal, [], Some(Rounds.Start(goal, goal))), Encode(t)).value;
    IntegerArithmetic(goal, 2.0);
    assert goal - 0.0 == goal;
    assert Storable(played);
    RoundTrip(played);
  }

  /** Loading the `rounds` array: every entry goes through the round-result
      constructor in order, and the first entry that fails decides the
      error. */
  function LoadRounds(items: seq<Value>): (res: Result<seq<RoundResult>>)
    ensures res.Ok? <==> forall i :: 0 <= i < |items| ==> RoundResults.New(items[i], Undefined).Ok?
    ensures res.Ok? ==>
      |res.value| == |items| &&
      forall i :: 0 <= i < |items| ==> RoundResults.New(items[i], Undefined) == Ok(res.value[i])
    ensures res.Err? ==>
      exists i :: 0 <= i < |items| && RoundResults.New(items[i], Undefined) == Err(res.error) &&
        forall j :: 0 <= j < i ==> RoundResults.New(items[j], Undefined).Ok?
  {
    LoadEach(items, (item: Value) => RoundResults.New(item, Undefined))
  }

  /** The per-field checks of `#fromStruct`, in the source's order: `goal`
      must be an integer of at least 1, `rounds` an array of round records. */
  function Fields(v: Value): (res: Result<Game>)
    ensures !IsObjectLike(v) || !Get(v, "goal").Num? ==> res == Err(TypeError)
    ensures IsObjectLike(v) && Get(v, "goal").Num? && !IsIntegerAtLeast(Get(v, "goal"), 1)
            ==> res == Err(RangeError)
    ensures IsObjectLike(v) && IsIntegerAtLeast(Get(v, "goal"), 1) && !Get(v, "rounds").Arr?
            ==> res == Err(TypeError)
    ensures IsObjectLike(v) && IsIntegerAtLeast(Get(v, "goal"), 1) && Get(v, "rounds").Arr?
            && LoadRounds(Get(v, "rounds").items).Err?
            ==> res == Err(LoadRounds(Get(v, "rounds").items).error)
    ensures res.Ok? <==>
      && IsObjectLike(v) && IsIntegerAtLeast(Get(v, "goal"), 1) && Get(v, "rounds").Arr?
      && LoadRounds(Get(v, "rounds").items).Ok?
    ensures res.Ok? ==>
      && IsIntegerAtLeast(Get(v, "goal"), 1)
      && Num(res.value.goal) == Get(v, "goal")
      && Get(v, "rounds").Arr?
      && LoadRounds(Get(v, "rounds").items) == Ok(res.value.rounds)
      && res.value.currentRound.None?
  {
    if !IsObjectLike(v) then Err(TypeError)
    else
      var goal := Get(v, "goal");
      if !goal.Num? then Err(TypeError)
      else if !IsInteger(goal.n) || goal.n < 1.0 then Err(RangeError)
      else if !HasKey(v, "rounds") then Err(TypeError)
      else if !Get(v, "rounds").Arr? then Err(TypeError)
      else
        var rounds :- LoadRounds(Get(v, "rounds").items);
        Ok(Game(goal.n, rounds, None))
  }

  /** `#fromStruct`: the per-field checks, then `currentRound` must be an
      object or null, then the cross-field invariant: an ongoing game must
      carry a round and a finished one must not. */
  function FromStruct(v: Value): (res: Result<Game>)
    ensures Fields(v).Err? ==> res == Err(Fields(v).error)
    ensures Fields(v).Ok? && !IsObjectLike(Get(v, "currentRound")) ==> res == Err(TypeError)
    ensures Fields(v).Ok? && IsObjectLike(Get(v, "currentRound")) && !Get(v, "currentRound").Null?
            && ResultOf(Fields(v).value).Ok? && !Decided(Fields(v).value)
            && Rounds.FromStruct(Get(v, "currentRound")).Err?
            ==> res == Err(Rounds.FromStruct(Get(v, "currentRound")).error)
    ensures res.Ok? ==> Storable(res.value)
    ensures res.Ok? ==> Fields(v) == Ok(res.value.(currentRound := None))
    ensures res.Ok? ==> (res.value.currentRound.None? <==> Get(v, "currentRound").Null?)
    ensures res.Ok? && res.value.currentRound.Some? ==>
      Rounds.FromStruct(Get(v, "currentRound")) == Ok(res.value.currentRound.value)
  {
    var partial :- Fields(v);
    var cr := Get(v, "currentRound");
    if !IsObjectLike(cr) then Err(TypeError)
    else
      var standing :- ResultOf(partial);
      if standing.winner.None? then
        if cr.Null? then Err(InvariantError)
        else
          var round :- Rounds.New(cr, Undefined);
          Ok(partial.(currentRound := Some(round)))
      else if !cr.Null? then Err(InvariantError)
      else Ok(partial)
  }

  /** Once the fields pass, the loader raises a plain invariant Error exactly
      when the rounds give two winners, an ongoing game has no round, or a
      finished game carries one; it succeeds exactly when the totals give at
      most one winner and `currentRound` is null for a finished game and a
      loadable round record for an ongoing one. */
  lemma LoadEnforcesLiveRoundIffUndecided(v: Value, partial: Game)
    requires Fields(v) == Ok(partial) && IsObjectLike(Get(v, "currentRound"))
    ensures FromStruct(v) == Err(InvariantError) <==>
      || ResultOf(partial).Err?
      || (!Decided(partial) && Get(v, "currentRound").Null?)
      || (Decided(partial) && !Get(v, "currentRound").Null?)
    ensures FromStruct(v).Ok? <==>
      && ResultOf(partial).Ok?
      && (Decided(partial) ==> Get(v, "currentRound").Null?)
      && (!Decided(partial) ==>
            !Get(v, "currentRound").Null? && Rounds.FromStruct(Get(v, "currentRound")).Ok?)
  {
  }

  /** The round records of a game load back to the same results. */
  lemma RoundRecordsLoad(rounds: seq<RoundResult>)
    ensures LoadRounds(RoundRecords(rounds)) == Ok(rounds)
  {
    var items := RoundRecords(rounds);
    forall i | 0 <= i < |items|
      ensures RoundResults.New(items[i], Undefined) == Ok(rounds[i])
    {
      RoundResults.RoundTrip(rounds[i]);
    }
    assert LoadRounds(items).value == rounds;
  }

  /** The goal and round records of an export pass the per-field checks. */
  lemma ExportedFieldsLoad(g: Game)
    requires IsInteger(g.goal) && g.goal >= 1.0
    ensures Fields(ToStruct(g)) == Ok(g.(currentRound := None))
  {
    RoundRecordsLoad(g.rounds);
  }

  /** Every valid game with integral goal and limits survives export and
      load unchanged, through the loader and through the constructor. */
  lemma RoundTrip(g: Game)
    requires Storable(g)
    ensures FromStruct(ToStruct(g)) == Ok(g)
    ensures New(ToStruct(g)) == Ok(g)
  {
    ExportedFieldsLoad(g);
    if g.currentRound.Some? {
      Rounds.RoundTrip(g.currentRound.value);
    }
  }

  /** Load, export, load: the second load gives the same game as the first. */
  lemma ReloadIsStable(v: Value, g: Game)
    requires FromStruct(v) == Ok(g)
    ensures FromStruct(ToStruct(g)) == Ok(g)
  {
    RoundTrip(g);
  }
}

=== FILE: json.dfy ===
/** The structured records the models export and load: the JSON-like values
    a JavaScript object can hold, with exact rationals for numbers. */
module Json {

  datatype Value =
    | Undefined
    | Null
    | Bool(b: bool)
    | Num(n: real)
    | Str(s: string)
    | Arr(items: seq<Value>)
    | Obj(fields: map<string, Value>)

  /** The `typeof` test for "object", which holds for null and arrays too. */
  predicate IsObjectLike(v: Value) {
    v.Null? || v.Arr? || v.Obj?
  }

  /** `key in v`: the key is present, whatever value it holds. */
  predicate HasKey(v: Value, key: string) {
    v.Obj? && key in v.fields
  }

  /** `v[key]`: a missing property reads as `undefined`. */
  function Get(v: Value, key: string): (r: Value)
    ensures !HasKey(v, key) ==> r.Undefined?
    ensures HasKey(v, key) ==> r == v.fields[key]
  {
    if v.Obj? && key in v.fields then v.fields[key] else Undefined
  }

  /** `Number.isInteger(x)`. */
  predicate IsInteger(x: real) {
    x.Floor as real == x
  }

  /** A number field that `Number.isInteger` accepts and that is at least `min`. */
  predicate IsIntegerAtLeast(v: Value, min: int) {
    v.Num? && IsInteger(v.n) && v.n >= min as real
  }

  /** Sums and differences of integral numbers are integral. */
  lemma IntegerArithmetic(x: real, y: real)
    requires IsInteger(x) && IsInteger(y)
    ensures IsInteger(x + y) && IsInteger(x - y)
  {
    var m, n := x.Floor, y.Floor;
    assert x == m as real && y == n as real;
    var sum, diff := m + n, m - n;
    assert x + y == sum as real && (sum as real).Floor == sum;
    assert x - y == diff as real && (diff as real).Floor == diff;
  }
}

=== FILE: results.dfy ===
/** Failure-compatible wrappers shared by every layer of the score keeper.
    The JavaScript models throw; here each operation returns a `Result`
    whose error records the kind of exception the source raises. */
module Results {

  datatype Option<+T> = None | Some(value: T)

  /** The exception classes the models throw. `InvariantError` is a plain
      `Error` (a broken structural guarantee); `ReferenceError` is what the
      JavaScript runtime throws when a name is not defined. */
  datatype ErrorKind = TypeError | RangeError | InvariantError | ReferenceError

  datatype Result<+T> = Ok(value: T) | Err(error: ErrorKind) {

    predicate IsFailure() {
      Err?
    }

    function PropagateFailure<U>(): Result<U>
      requires Err?
    {
      Err(error)
    }

    function Extract(): T
      requires Ok?
    {
      value
    }
  }

  /** Mapping a loader over an array: every item is loaded in order, and the
      first item that fails decides the error. */
  function LoadEach<A, T>(items: seq<A>, load: A -> Result<T>): (res: Result<seq<T>>)
    ensures res.Ok? <==> forall i :: 0 <= i < |items| ==> load(items[i]).Ok?
    ensures res.Ok? ==>
      |res.value| == |items| &&
      forall i :: 0 <= i < |items| ==> load(items[i]) == Ok(res.value[i])
    ensures res.Err? ==>
      exists i :: 0 <= i < |items| && load(items[i]) == Err(res.error) &&
        forall j :: 0 <= j < i ==> load(items[j]).Ok?
    decreases |items|
  {
    if |items| == 0 then Ok([])
    else
      var head :- load(items[0]);
      var rest := LoadEach(items[1..], load);
      if rest.Err? then
        ghost var i :| 0 <= i < |items| - 1 && load(items[1..][i]) == Err(rest.error) &&
          forall j :: 0 <= j < i ==> load(items[1..][j]).Ok?;
        assert forall j :: 1 <= j < i + 1 ==> items[j] == items[1..][j - 1];
        assert load(items[i + 1]) == Err(rest.error);
        Err(rest.error)
      else
        Ok([head] + rest.value)
  }
}

=== FILE: round.dfy ===
/** A single round of Watten: the escalation state machine for the round
    currently being played. A round starts at 2 points; the teams take turns
    raising it, each up to its own limit, until a winner is declared. */
module Rounds {
  import opened Json
  import opened Results
  import opened Teams

  /** What every round is worth before anyone raises. */
  const StartingPoints: int := 2

  /** The raise limit of a round created without arguments. */
  const DefaultLimit: real := 11.0

  datatype Round = Round(
    points: int,
    raisedLast: Option<Team>,
    winner: Option<Team>,
    ourLimit: real,
    theirLimit: real)

  /** What construction and loading guarantee of every round. There is no
      cross-field check: a loaded round may already sit above a limit. */
  predicate Valid(r: Round) {
    r.points >= StartingPoints && r.ourLimit >= 2.0 && r.theirLimit >= 2.0
  }

  /** A valid round whose export can be loaded again: `Number.isInteger`
      holds of both limits. */
  predicate Storable(r: Round) {
    Valid(r) && IsInteger(r.ourLimit) && IsInteger(r.theirLimit)
  }

  /** The `decided` getter: a winner has been set, and with it neither
      team can raise any more. */
  predicate Decided(r: Round): (d: bool)
    ensures d <==> !MayRaise(r, We) && !MayRaise(r, They)
  {
    r.winner.Some?
  }

  /** The most a team is willing to raise to. */
  function Limit(r: Round, t: Team): real {
    if t == We then r.ourLimit else r.theirLimit
  }

  /** `canRaise` for an actual team: the round is open and the team did not
      raise last. */
  predicate MayRaise(r: Round, t: Team) {
    r.winner.None? && r.raisedLast != Some(t)
  }

  /** A new undecided round with the given limits. */
  function Start(ourLimit: real, theirLimit: real): (r: Round)
    requires ourLimit >= StartingPoints as real && theirLimit >= StartingPoints as real
    ensures Valid(r) && !Decided(r)
    ensures r.points == StartingPoints && r.raisedLast.None?
    ensures Limit(r, We) == ourLimit && Limit(r, They) == theirLimit
    ensures MayRaise(r, We) && MayRaise(r, They)
  {
    Round(StartingPoints, None, None, ourLimit, theirLimit)
  }

  /** The `Round` constructor: no arguments, two numeric limits, or one record. */
  function New(a: Value, b: Value): (res: Result<Round>)
    ensures a.Undefined? && b.Undefined? ==>
      res.Ok? && res.value == Start(DefaultLimit, DefaultLimit)
    ensures a.Num? && b.Num? ==>
      (res.Ok? <==> a.n >= 2.0 && b.n >= 2.0) &&
      (res.Err? ==> res.error == RangeError) &&
      (res.Ok? ==> res.value == Start(a.n, b.n))
    ensures IsObjectLike(a) && b.Undefined? ==> res == FromStruct(a)
    ensures res.Ok? ==> Valid(res.value)
    ensures !(a.Undefined? && b.Undefined?) && !(a.Num? && b.Num?) && !(IsObjectLike(a) && b.Undefined?)
      ==> res == Err(TypeError)
  {
    if a.Undefined? && b.Undefined? then
      Ok(Start(DefaultLimit, DefaultLimit))
    else if a.Num? && b.Num? then
      if a.n < StartingPoints as real then Err(RangeError)
      else if b.n < StartingPoints as real then Err(RangeError)
      else Ok(Start(a.n, b.n))
    else if IsObjectLike(a) && b.Undefined? then
      FromStruct(a)
    else
      Err(TypeError)
  }

  /** `canRaise(t)`: anything but a team is a TypeError. */
  function CanRaise(r: Round, t: Value): (res: Result<bool>)
    ensures res.Err? <==> !IsTeam(t)
    ensures res.Err? ==> res.error == TypeError
    ensures res.Ok? ==> (res.value <==> !Decided(r) && r.raisedLast != Decode(t))
  {
    match Decode(t)
    case None => Err(TypeError)
    case Some(team) => Ok(MayRaise(r, team))
  }

  /** The `winner` setter: only a team can win, and only an open round. */
  function SetWinner(r: Round, t: Value): (res: Result<Round>)
    ensures !IsTeam(t) ==> res == Err(TypeError)
    ensures IsTeam(t) && Decided(r) ==> res == Err(InvariantError)
    ensures res.Ok? <==> IsTeam(t) && !Decided(r)
    ensures res.Ok? ==>
      && res.value.winner == Decode(t)
      && res.value.points == r.points
      && res.value.raisedLast == r.raisedLast
      && res.value.ourLimit == r.ourLimit
      && res.value.theirLimit == r.theirLimit
  {
    match Decode(t)
    case None => Err(TypeError)
    case Some(team) =>
      if Decided(r) then Err(InvariantError)
      else Ok(r.(winner := Some(team)))
  }

  /** `raise` by an actual team. A team that may not raise changes nothing;
      a team raising at or above its own limit forfeits the round to the
      other team; otherwise the round is worth one point more. */
  function RaiseBy(r: Round, t: Team): (r': Round)
    ensures !MayRaise(r, t) ==> r' == r
    ensures MayRaise(r, t) && r.points as real >= Limit(r, t) ==>
      && r'.winner == Some(Other(t))
      && r'.points == r.points
      && r'.raisedLast == r.raisedLast
    ensures MayRaise(r, t) && r.points as real < Limit(r, t) ==>
      && r'.points == r.points + 1
      && r'.raisedLast == Some(t)
      && !Decided(r')
      && !MayRaise(r', t)
      && MayRaise(r', Other(t))
    ensures r.points <= r'.points <= r.points + 1
    ensures r'.ourLimit == r.ourLimit && r'.theirLimit == r.theirLimit
    ensures Decided(r) ==> r' == r
    ensures Valid(r) ==> Valid(r')
  {
    if !MayRaise(r, t) then r
    else if r.points as real >= Limit(r, t) then r.(winner := Some(Other(t)))
    else r.(raisedLast := Some(t), points := r.points + 1)
  }

  /** `raise(t)`: anything but a team is a TypeError. */
  function Raise(r: Round, t: Value): (res: Result<Round>)
    ensures res.Ok? <==> IsTeam(t)
    ensures res.Err? ==> res.error == TypeError
    ensures res.Ok? ==> res.value == RaiseBy(r, Decode(t).value)
  {
    match Decode(t)
    case None => Err(TypeError)
    case Some(team) => Ok(RaiseBy(r, team))
  }

  /** An interaction with the live round. */
  datatype Action = Raising(raiser: Value) | Winning(claimant: Value)

  function Apply(r: Round, a: Action): Result<Round> {
    match a
    case Raising(t) => Raise(r, t)
    case Winning(t) => SetWinner(r, t)
  }

  /** A sequence of interactions. A rejected one leaves the round as it was,
      since every operation either fully succeeds or changes nothing. */
  function Play(r: Round, acts: seq<Action>): Round
    decreases |acts|
  {
    if |acts| == 0 then r
    else
      var next := Apply(r, acts[0]);
      Play(if next.Ok? then next.value else r, acts[1..])
  }

  /** Over any sequence of interactions the points never decrease and grow
      by at most one per interaction, the limits never move, validity is
      kept, and a decided round is frozen: its winner is set at most once. */
  lemma {:induction false} PlayKeepsRoundShape(r: Round, acts: seq<Action>)
    requires Valid(r)
    ensures var r' := Play(r, acts);
      && Valid(r')
      && r.points <= r'.points <= r.points + |acts|
      && r'.ourLimit == r.ourLimit && r'.theirLimit == r.theirLimit
      && (Decided(r) ==> r' == r)
    decreases |acts|
  {
    if |acts| > 0 {
      var next := Apply(r, acts[0]);
      var r1 := if next.Ok? then next.value else r;
      PlayKeepsRoundShape(r1, acts[1..]);
    }
  }

  /** Once a round is decided, every further interaction is either rejected
      or changes nothing. */
  lemma {:induction false} DecidedRoundIsFrozen(r: Round, acts: seq<Action>)
    requires Decided(r)
    ensures Play(r, acts) == r
    decreases |acts|
  {
    if |acts| > 0 {
      var next := Apply(r, acts[0]);
      assert next.Ok? ==> next.value == r;
      DecidedRoundIsFrozen(r, acts[1..]);
    }
  }

  const Keys: set<string> := {"points", "raisedLast", "winner", "ourLimit", "theirLimit"}

  /** `toStruct`: all five fields, under the names the source writes. */
  function ToStruct(r: Round): (v: Value)
    ensures v.Obj? && v.fields.Keys == Keys
    ensures Get(v, "points") == Num(r.points as real)
    ensures Get(v, "raisedLast") == EncodeOptional(r.raisedLast)
    ensures Get(v, "winner") == EncodeOptional(r.winner)
    ensures Get(v, "ourLimit") == Num(r.ourLimit)
    ensures Get(v, "theirLimit") == Num(r.theirLimit)
  {
    Obj(map[
      "points" := Num(r.points as real),
      "raisedLast" := EncodeOptional(r.raisedLast),
      "winner" := EncodeOptional(r.winner),
      "ourLimit" := Num(r.ourLimit),
      "theirLimit" := Num(r.theirLimit)])
  }

  /** A `?Team` field that is present and holds `null` or a team. */
  predicate OptionalTeamField(v: Value, key: string) {
    HasKey(v, key) && (Get(v, key).Null? || IsTeam(Get(v, key)))
  }

  function DecodeOptional(v: Value): Option<Team> {
    if v.Null? then None else Decode(v)
  }

  /** Everything the record loader checks, as one condition. */
  predicate Loadable(v: Value) {
    && IsObjectLike(v)
    && IsIntegerAtLeast(Get(v, "points"), StartingPoints)
    && OptionalTeamField(v, "raisedLast")
    && OptionalTeamField(v, "winner")
    && IsIntegerAtLeast(Get(v, "ourLimit"), StartingPoints)
    && IsIntegerAtLeast(Get(v, "theirLimit"), StartingPoints)
  }

  /** The loader's checks up to and including `points` pass. */
  predicate PointsPass(v: Value) {
    IsObjectLike(v) && IsIntegerAtLeast(Get(v, "points"), StartingPoints)
  }

  /** The loader's checks up to and including `winner` pass. */
  predicate TeamsPass(v: Value) {
    PointsPass(v) && OptionalTeamField(v, "raisedLast") && OptionalTeamField(v, "winner")
  }

  /** `#fromStruct`: field by field in the source's order, a wrong shape is a
      TypeError and a number out of its domain a RangeError. */
  function FromStruct(v: Value): (res: Result<Round>)
    ensures res.Ok? <==> Loadable(v)
    ensures res.Ok? ==> Storable(res.value)
    ensures res.Err? ==> res.error == TypeError || res.error == RangeError
    ensures !IsObjectLike(v) || !Get(v, "points").Num? ==> res == Err(TypeError)
    ensures IsObjectLike(v) && Get(v, "points").Num? && !IsIntegerAtLeast(Get(v, "points"), StartingPoints)
            ==> res == Err(RangeError)
    ensures PointsPass(v) && !OptionalTeamField(v, "raisedLast") ==> res == Err(TypeError)
    ensures PointsPass(v) && OptionalTeamField(v, "raisedLast") && !OptionalTeamField(v, "winner")
            ==> res == Err(TypeError)
    ensures TeamsPass(v) && !Get(v, "ourLimit").Num? ==> res == Err(TypeError)
    ensures TeamsPass(v) && Get(v, "ourLimit").Num? && !IsIntegerAtLeast(Get(v, "ourLimit"), StartingPoints)
            ==> res == Err(RangeError)
    ensures TeamsPass(v) && IsIntegerAtLeast(Get(v, "ourLimit"), StartingPoints) && !Get(v, "theirLimit").Num?
            ==> res == Err(TypeError)
    ensures TeamsPass(v) && IsIntegerAtLeast(Get(v, "ourLimit"), StartingPoints) && Get(v, "theirLimit").Num?
            && !IsIntegerAtLeast(Get(v, "theirLimit"), StartingPoints)
            ==> res == Err(RangeError)
  {
    if !IsObjectLike(v) then Err(TypeError)
    else
      var points := Get(v, "points");
      if !points.Num? then Err(TypeError)
      else if !IsInteger(points.n) || points.n < StartingPoints as real then Err(RangeError)
      else if !HasKey(v, "raisedLast") then Err(TypeError)
      else if !Get(v, "raisedLast").Null? && !IsTeam(Get(v, "raisedLast")) then Err(TypeError)
      else if !HasKey(v, "winner") then Err(TypeError)
      else if !Get(v, "winner").Null? && !IsTeam(Get(v, "winner")) then Err(TypeError)
      else
        var ours := Get(v, "ourLimit");
        if !ours.Num? then Err(TypeError)
        else if !IsInteger(ours.n) || ours.n < StartingPoints as real then Err(RangeError)
        else
          var theirs := Get(v, "theirLimit");
          if !theirs.Num? then Err(TypeError)
          else if !IsInteger(theirs.n) || theirs.n < StartingPoints as real then Err(RangeError)
          else
            Ok(Round(
              points.n.Floor,
              DecodeOptional(Get(v, "raisedLast")),
              DecodeOptional(Get(v, "winner")),
              ours.n,
              theirs.n))
  }

  /** Export then load gives back the same round exactly when its export
      passes the loader's checks: at least 2 points and integral limits of
      at least 2. A round built fresh with a non-integral limit exports a
      record its own loader rejects. */
  lemma RoundTrip(r: Round)
    ensures FromStruct(ToStruct(r)) == Ok(r) <==> Storable(r)
  {
    var v := ToStruct(r);
    if Storable(r) {
      assert (r.points as real).Floor == r.points;
      assert DecodeOptional(EncodeOptional(r.raisedLast)) == r.raisedLast;
      assert DecodeOptional(EncodeOptional(r.winner)) == r.winner;
    }
  }

  /** Load then export reproduces the five fields of the loaded record. */
  lemma ReexportMatchesRecord(v: Value, r: Round)
    requires FromStruct(v) == Ok(r)
    ensures forall k :: k in Keys ==> Get(ToStruct(r), k) == Get(v, k)
  {
    var p := Get(v, "points").n;
    assert p.Floor as real == p;
  }
}

=== FILE: round_result.dfy ===
/** The immutable record of a finished round: what it was worth and who won
    it. There are getters only; a value of this datatype never changes. */
module RoundResults {
  import opened Json
  import opened Results
  import opened Teams

  datatype RoundResult = RoundResult(points: real, winner: Team)

  /** The `RoundResult` constructor: fresh `(points, winner)` or one record.
      The fresh form checks only that `points` is a number. */
  function New(a: Value, b: Value): (res: Result<RoundResult>)
    ensures a.Num? && IsTeam(b) ==> res == Ok(RoundResult(a.n, Decode(b).value))
    ensures !(a.Num? && IsTeam(b)) && IsObjectLike(a) && b.Undefined? ==> res == FromStruct(a)
    ensures !(a.Num? && IsTeam(b)) && !(IsObjectLike(a) && b.Undefined?) ==> res == Err(TypeError)
  {
    if a.Num? && IsTeam(b) then Ok(RoundResult(a.n, Decode(b).value))
    else if IsObjectLike(a) && b.Undefined? then FromStruct(a)
    else Err(TypeError)
  }

  /** `toJSON`: exactly the two fields. */
  function ToJson(rr: RoundResult): (v: Value)
    ensures v.Obj? && v.fields.Keys == {"points", "winner"}
    ensures Get(v, "points") == Num(rr.points)
    ensures Get(v, "winner") == Encode(rr.winner)
  {
    Obj(map["points" := Num(rr.points), "winner" := Encode(rr.winner)])
  }

  /** Everything the record form checks: `points` present and a number,
      `winner` present and a team. It does not ask for an integer or for
      at least 2 points. */
  predicate Loadable(v: Value) {
    HasKey(v, "points") && Get(v, "points").Num? && HasKey(v, "winner") && IsTeam(Get(v, "winner"))
  }

  /** The record form of the constructor, with the misspelt exception class
      corrected: a non-numeric `points` is a TypeError. */
  function FromStruct(v: Value): (res: Result<RoundResult>)
    ensures res.Ok? <==> Loadable(v)
    ensures res.Err? ==> res.error == TypeError
    ensures res.Ok? ==> Num(res.value.points) == Get(v, "points") && Encode(res.value.winner) == Get(v, "winner")
  {
    if !HasKey(v, "points") then Err(TypeError)
    else if !Get(v, "points").Num? then Err(TypeError)
    else if !HasKey(v, "winner") then Err(TypeError)
    else if !IsTeam(Get(v, "winner")) then Err(TypeError)
    else Ok(RoundResult(Get(v, "points").n, Decode(Get(v, "winner")).value))
  }

  /** The record form as written: the non-numeric `points` branch names the
      undefined class `TypeEror`, so evaluating it throws a ReferenceError. */
  function FromStructAsWritten(v: Value): (res: Result<RoundResult>)
    ensures res.Ok? <==> Loadable(v)
    ensures HasKey(v, "points") && !Get(v, "points").Num? ==> res == Err(ReferenceError)
  {
    if !HasKey(v, "points") then Err(TypeError)
    else if !Get(v, "points").Num? then Err(ReferenceError)
    else if !HasKey(v, "winner") then Err(TypeError)
    else if !IsTeam(Get(v, "winner")) then Err(TypeError)
    else Ok(RoundResult(Get(v, "points").n, Decode(Get(v, "winner")).value))
  }

  /** The two loaders differ only in the exception class of a present but
      non-numeric `points`; the record `{points: "4", winner: 2}` shows it. */
  lemma MisspeltExceptionClass(v: Value)
    ensures FromStructAsWritten(v) != FromStruct(v) <==> HasKey(v, "points") && !Get(v, "points").Num?
    ensures FromStructAsWritten(v) != FromStruct(v) ==>
      FromStructAsWritten(v) == Err(ReferenceError) && FromStruct(v) == Err(TypeError)
    ensures var w := Obj(map["points" := Str("4"), "winner" := Num(2.0)]);
      FromStructAsWritten(w) == Err(ReferenceError) && FromStruct(w) == Err(TypeError)
  {
  }

  /** Export then load gives back an equal result, for every result. */
  lemma RoundTrip(rr: RoundResult)
    ensures FromStruct(ToJson(rr)) == Ok(rr)
    ensures New(ToJson(rr), Undefined) == Ok(rr)
  {
    DecodeEncode(rr.winner);
  }

  /** Load then export reproduces the two fields of the loaded record. */
  lemma ReexportMatchesRecord(v: Value, rr: RoundResult)
    requires FromStruct(v) == Ok(rr)
    ensures Get(ToJson(rr), "points") == Get(v, "points")
    ensures Get(ToJson(rr), "winner") == Get(v, "winner")
  {
  }
}

=== FILE: session.dfy ===
/** A session of Watten: finished games plus at most one live game, with a
    punitive running score. A session has no owner above it. */
module Sessions {
  import opened Json
  import opened Results
  import opened Teams
  import Rounds
  import Games

  const DefaultGoal: int := 11

  datatype Session = Session(
    id: Option<int>,
    goal: int,
    ourTeam: string,
    theirTeam: string,
    games: seq<Games.Game>,
    currentGame: Option<Games.Game>)

  /** Every finished game is valid and decided; the live game, if any, is
      valid and undecided. */
  predicate Valid(s: Session) {
    && s.goal >= 1
    && (forall i :: 0 <= i < |s.games| ==> Games.Valid(s.games[i]) && Games.Decided(s.games[i]))
    && (s.currentGame.Some? ==> Games.Valid(s.currentGame.value) && !Games.Decided(s.currentGame.value))
  }

  /** A valid session whose export its loader accepts again. */
  predicate Storable(s: Session) {
    && Valid(s)
    && (forall i :: 0 <= i < |s.games| ==> Games.Storable(s.games[i]))
    && (s.currentGame.Some? ==> Games.Storable(s.currentGame.value))
  }

  /** The `Session` constructor without arguments. */
  const Initial: Session := Session(None, DefaultGoal, "", "", [], None)

  /** The `Session` constructor: no argument or one record. */
  function New(v: Value): (res: Result<Session>)
    ensures v.Undefined? ==> res == Ok(Initial)
    ensures IsObjectLike(v) ==> res == FromStruct(v)
    ensures !v.Undefined? && !IsObjectLike(v) ==> res == Err(TypeError)
    ensures res.Ok? ==> Valid(res.value)
  {
    if v.Undefined? then Ok(Initial)
    else if IsObjectLike(v) then FromStruct(v)
    else Err(TypeError)
  }

  /** The `goal` setter: a number, integral and at least 1. It applies to
      games started later and touches nothing else. */
  function SetGoal(s: Session, v: Value): (res: Result<Session>)
    ensures !v.Num? ==> res == Err(TypeError)
    ensures v.Num? && !IsIntegerAtLeast(v, 1) ==> res == Err(RangeError)
    ensures res.Ok? <==> IsIntegerAtLeast(v, 1)
    ensures res.Ok? ==> res.value == s.(goal := res.value.goal) && res.value.goal as real == v.n
    ensures res.Ok? && Valid(s) ==> Valid(res.value)
  {
    if !v.Num? then Err(TypeError)
    else if !IsInteger(v.n) || v.n < 1.0 then Err(RangeError)
    else Ok(s.(goal := v.n.Floor))
  }

  /** `anotherGame`: start a game with the session's goal unless one is
      live, in which case nothing changes. A goal of 1 passes the setter
      but not the game's first round, so it makes this a RangeError. */
  function AnotherGame(s: Session): (res: Result<Session>)
    ensures s.currentGame.Some? ==> res == Ok(s)
    ensures s.currentGame.None? && s.goal >= 2 ==>
      res == Ok(s.(currentGame := Some(Games.Game(s.goal as real, [], Some(Games.NextRound(s.goal as real, 0.0, 0.0))))))
    ensures s.currentGame.None? && s.goal < 2 ==> res == Err(RangeError)
    ensures res.Ok? && Valid(s) ==> Valid(res.value)
  {
    if s.currentGame.Some? then Ok(s)
    else
      var game :- Games.New(Num(s.goal as real));
      Ok(s.(currentGame := Some(game)))
  }

  /** The session's punitive totals. */
  datatype Totals = Totals(ourPoints: int, theirPoints: int)

  predicate AllDecided(games: seq<Games.Game>) {
    forall i :: 0 <= i < |games| ==> Games.Decided(games[i])
  }

  /** What one finished game adds: its bonus goes to the team that lost. */
  function Penalty(g: Games.Game): (p: Totals)
    requires Games.Decided(g)
    ensures var st := Games.ResultOf(g).value;
      if st.winner == Some(We) then p == Totals(0, st.points) else p == Totals(st.points, 0)
    ensures 1 <= p.ourPoints + p.theirPoints <= 4
  {
    var st := Games.ResultOf(g).value;
    if st.winner.value == We then Totals(0, st.points) else Totals(st.points, 0)
  }

  function Add(a: Totals, b: Totals): Totals {
    Totals(a.ourPoints + b.ourPoints, a.theirPoints + b.theirPoints)
  }

  /** The sum over the finished games in order. Each game adds between 1
      and 4 points in all, so the totals stay within those bounds. */
  function Penalties(games: seq<Games.Game>): (t: Totals)
    requires AllDecided(games)
    ensures 0 <= t.ourPoints && 0 <= t.theirPoints
    ensures |games| <= t.ourPoints + t.theirPoints <= 4 * |games|
    decreases |games|
  {
    if |games| == 0 then Totals(0, 0)
    else Add(Penalties(games[..|games| - 1]), Penalty(games[|games| - 1]))
  }

  /** The session's `result`; 0/0 for a session without finished games. */
  function ResultOf(s: Session): (t: Totals)
    requires Valid(s)
    ensures |s.games| == 0 ==> t == Totals(0, 0)
    ensures 0 <= t.ourPoints && 0 <= t.theirPoints
    ensures |s.games| <= t.ourPoints + t.theirPoints <= 4 * |s.games|
    ensures t == Totals(BonusesLost(s.games, We), BonusesLost(s.games, They))
  {
    PenaltiesAreBonusesLost(s.games);
    Penalties(s.games)
  }

  /** Filing one more finished game credits its bonus to its loser and
      leaves the winner's total alone. */
  lemma FilingCreditsTheLoser(games: seq<Games.Game>, g: Games.Game)
    requires AllDecided(games) && Games.Decided(g)
    ensures AllDecided(games + [g])
    ensures var before := Penalties(games);
      var after := Penalties(games + [g]);
      var st := Games.ResultOf(g).value;
      if st.winner == Some(We) then
        after.ourPoints == before.ourPoints && after.theirPoints == before.theirPoints + st.points
      else
        after.theirPoints == before.theirPoints && after.ourPoints == before.ourPoints + st.points
  {
    assert (games + [g])[..|games|] == games;
  }

  /** What a finished game costs a team: its bonus if the team lost it. */
  function Lost(g: Games.Game, t: Team): int
    requires Games.Decided(g)
  {
    var st := Games.ResultOf(g).value;
    if st.winner == Some(Other(t)) then st.points else 0
  }

  /** Reference definition of a team's punitive total: the bonuses of the
      finished games it lost, summed from the first game on. */
  function BonusesLost(games: seq<Games.Game>, t: Team): int
    requires AllDecided(games)
    decreases |games|
  {
    if |games| == 0 then 0
    else
      assert AllDecided(games[1..]) by {
        assert forall i :: 0 <= i < |games| - 1 ==> games[1..][i] == games[i + 1];
      }
      Lost(games[0], t) + BonusesLost(games[1..], t)
  }

  lemma {:induction false} BonusesLostAppend(games: seq<Games.Game>, g: Games.Game, t: Team)
    requires AllDecided(games) && Games.Decided(g)
    ensures AllDecided(games + [g])
    ensures BonusesLost(games + [g], t) == BonusesLost(games, t) + Lost(g, t)
    decreases |games|
  {
    assert AllDecided(games + [g]) by {
      assert forall i :: 0 <= i < |games| ==> (games + [g])[i] == games[i];
    }
    if |games| > 0 {
      assert (games + [g])[1..] == games[1..] + [g];
      assert AllDecided(games[1..]) by {
        assert forall i :: 0 <= i < |games| - 1 ==> games[1..][i] == games[i + 1];
      }
      BonusesLostAppend(games[1..], g, t);
    }
  }

  /** The session's totals are exactly each team's lost bonuses: "we" are
      charged for the games "they" won, and the other way round. */
  lemma {:induction false} PenaltiesAreBonusesLost(games: seq<Games.Game>)
    requires AllDecided(games)
    ensures Penalties(games).ourPoints == BonusesLost(games, We)
    ensures Penalties(games).theirPoints == BonusesLost(games, They)
    decreases |games|
  {
    if |games| > 0 {
      var init := games[..|games| - 1];
      var last := games[|games| - 1];
      assert games == init + [last];
      assert AllDecided(init) by {
        assert forall i :: 0 <= i < |init| ==> init[i] == games[i];
      }
      PenaltiesAreBonusesLost(init);
      BonusesLostAppend(init, last, We);
      BonusesLostAppend(init, last, They);
    }
  }

  /** `#handleGameChange`, called directly: a decided live game is filed
      and the session is left without a live game. */
  function GameChanged(s: Session, g: Games.Game): (s': Session)
    requires Games.Valid(g)
    ensures Games.Decided(g) ==> s'.games == s.games + [g] && s'.currentGame.None?
    ensures !Games.Decided(g) ==> s'.games == s.games && s'.currentGame == Some(g)
    ensures s'.goal == s.goal && s'.id == s.id && s'.ourTeam == s.ourTeam && s'.theirTeam == s.theirTeam
    ensures Valid(s) ==> Valid(s')
  {
    if Games.Decided(g) then s.(games := s.games + [g], currentGame := None)
    else s.(currentGame := Some(g))
  }

  /** Setting the winner of the live round of the live game. */
  function SetWinner(s: Session, t: Value): (res: Result<Session>)
    requires Valid(s)
    ensures s.currentGame.None? ==> res == Err(TypeError)
    ensures s.currentGame.Some? ==>
      (res.Ok? <==> IsTeam(t) && !Rounds.Decided(s.currentGame.value.currentRound.value))
    ensures res.Ok? ==> Valid(res.value)
    ensures res.Ok? ==> res.value.games == s.games || res.value.currentGame.None?
    ensures res.Ok? && res.value.games != s.games ==>
      |res.value.games| == |s.games| + 1 && res.value.games[..|s.games|] == s.games
    ensures res.Ok? ==>
      var played := Games.SetWinner(s.currentGame.value, t).value;
      && res.value.goal == s.goal && res.value.id == s.id
      && res.value.ourTeam == s.ourTeam && res.value.theirTeam == s.theirTeam
      && (Games.Decided(played) ==> res.value.games == s.games + [played] && res.value.currentGame.None?)
      && (!Games.Decided(played) ==> res.value.games == s.games && res.value.currentGame == Some(played))
  {
    if s.currentGame.None? then Err(TypeError)
    else
      var g :- Games.SetWinner(s.currentGame.value, t);
      Ok(GameChanged(s, g))
  }

  /** Raising in the live round of the live game. */
  function Raise(s: Session, t: Value): (res: Result<Session>)
    requires Valid(s)
    ensures s.currentGame.None? ==> res == Err(TypeError)
    ensures s.currentGame.Some? ==> (res.Ok? <==> IsTeam(t))
    ensures res.Ok? ==> Valid(res.value)
    ensures res.Ok? ==> res.value.games == s.games || res.value.currentGame.None?
    ensures res.Ok? && res.value.games != s.games ==>
      |res.value.games| == |s.games| + 1 && res.value.games[..|s.games|] == s.games
    ensures res.Ok? ==>
      var played := Games.Raise(s.currentGame.value, t).value;
      && res.value.goal == s.goal && res.value.id == s.id
      && res.value.ourTeam == s.ourTeam && res.value.theirTeam == s.theirTeam
      && (Games.Decided(played) ==> res.value.games == s.games + [played] && res.value.currentGame.None?)
      && (!Games.Decided(played) ==> res.value.games == s.games && res.value.currentGame == Some(played))
  {
    if s.currentGame.None? then Err(TypeError)
    else
      var g :- Games.Raise(s.currentGame.value, t);
      Ok(GameChanged(s, g))
  }

  /** The live game's filed rounds are worth whole numbers of points, as
      every round filed by play is. */
  predicate LiveRoundsIntegral(s: Session) {
    s.currentGame.Some? ==> Games.IntegralRounds(s.currentGame.value.rounds)
  }

  /** Handing a storable game with integral round points back to a storable
      session keeps it storable. */
  lemma GameChangedKeepsStorable(s: Session, g: Games.Game)
    requires Storable(s) && Games.Storable(g) && Games.IntegralRounds(g.rounds)
    ensures Storable(GameChanged(s, g)) && LiveRoundsIntegral(GameChanged(s, g))
  {
    var s' := GameChanged(s, g);
    assert forall i :: 0 <= i < |s.games| ==> s'.games[i] == s.games[i];
  }

  /** Winning a round keeps a storable session storable, so its export can
      be loaded again. */
  lemma SetWinnerKeepsStorable(s: Session, t: Value)
    requires Storable(s) && LiveRoundsIntegral(s)
    ensures SetWinner(s, t).Ok? ==> Storable(SetWinner(s, t).value) && LiveRoundsIntegral(SetWinner(s, t).value)
  {
    if SetWinner(s, t).Ok? {
      var g := s.currentGame.value;
      Games.ApplyKeepsStorable(g, Rounds.Winning(t));
      GameChangedKeepsStorable(s, Games.SetWinner(g, t).value);
    }
  }

  /** Raising keeps a storable session storable. */
  lemma RaiseKeepsStorable(s: Session, t: Value)
    requires Storable(s) && LiveRoundsIntegral(s)
    ensures Raise(s, t).Ok? ==> Storable(Raise(s, t).value) && LiveRoundsIntegral(Raise(s, t).value)
  {
    if Raise(s, t).Ok? {
      var g := s.currentGame.value;
      Games.ApplyKeepsStorable(g, Rounds.Raising(t));
      GameChangedKeepsStorable(s, Games.Raise(g, t).value);
    }
  }

  /** Starting another game keeps a storable session storable: the session
      goal is an integer, so the first round's limits are too. */
  lemma AnotherGameKeepsStorable(s: Session)
    requires Storable(s)
    ensures AnotherGame(s).Ok? ==> Storable(AnotherGame(s).value)
    ensures AnotherGame(s).Ok? && LiveRoundsIntegral(s) ==> LiveRoundsIntegral(AnotherGame(s).value)
  {
    if AnotherGame(s).Ok? && s.currentGame.None? {
      assert ((s.goal as real).Floor) == s.goal;
      Games.NextRoundIsStorable(s.goal as real, 0.0, 0.0);
    }
  }

  /** The session as the source writes it: it listens for a game event that
      no game fires, so a decided game stays live and is never filed. */
  function SetWinnerAsWritten(s: Session, t: Value): (res: Result<Session>)
    requires Valid(s)
    ensures res.Ok? ==> res.value.games == s.games && res.value.currentGame.Some?
  {
    if s.currentGame.None? then Err(TypeError)
    else
      var g :- Games.SetWinner(s.currentGame.value, t);
      Ok(s.(currentGame := Some(g)))
  }

  /** A session with a live game and nothing filed yet. */
  lemma FreshSessionWithLiveGame(goal: int, g: Games.Game)
    requires goal >= 1 && Games.Valid(g) && !Games.Decided(g)
    ensures Valid(Session(None, goal, "", "", [], Some(g)))
  {
  }

  /** Whenever a win decides the live game, the session as written is left
      with a decided live game and no filed one, which breaks the session
      invariant; the direct call files the game instead. */
  lemma UnfiledGameBreaksInvariant(s: Session, t: Value)
    requires Valid(s) && s.currentGame.Some?
    requires Games.SetWinner(s.currentGame.value, t).Ok?
    requires Games.Decided(Games.SetWinner(s.currentGame.value, t).value)
    ensures SetWinnerAsWritten(s, t).Ok? && !Valid(SetWinnerAsWritten(s, t).value)
    ensures AnotherGame(SetWinnerAsWritten(s, t).value) == SetWinnerAsWritten(s, t)
    ensures SetWinner(s, t).Ok? && Valid(SetWinner(s, t).value)
    ensures SetWinner(s, t).value.games == s.games + [Games.SetWinner(s.currentGame.value, t).value]
    ensures SetWinner(s, t).value.currentGame.None?
  {
  }

  /** A concrete case: in a session with goal 2 the first round decides the
      game, so UnfiledGameBreaksInvariant applies to it. */
  lemma FirstDecisiveRoundAsWritten()
    ensures var s := Session(None, 2, "", "", [], Some(Games.Game(2.0, [], Some(Rounds.Start(2.0, 2.0)))));
      && Valid(s)
      && Games.SetWinner(s.currentGame.value, Num(2.0)).Ok?
      && Games.Decided(Games.SetWinner(s.currentGame.value, Num(2.0)).value)
  {
    var g := Games.Game(2.0, [], Some(Rounds.Start(2.0, 2.0)));
    assert Games.Valid(g) && !Games.Decided(g);
    FreshSessionWithLiveGame(2, g);
    Games.FirstRoundOfFreshGame(2.0, They);
    assert Encode(They) == Num(2.0);
  }

  /** The game records of a session. */
  function GameRecords(games: seq<Games.Game>): (items: seq<Value>)
    ensures |items| == |games|
    ensures forall i :: 0 <= i < |games| ==> items[i] == Games.ToStruct(games[i])
  {
    seq(|games|, i requires 0 <= i < |games| => Games.ToStruct(games[i]))
  }

  /** `toStruct`: goal, labels, every game's record and the live game's
      record or null; `id` only when the session has one. */
  function ToStruct(s: Session): (v: Value)
    ensures v.Obj?
    ensures HasKey(v, "id") <==> s.id.Some?
    ensures v.fields.Keys - {"id"} == {"goal", "ourTeam", "theirTeam", "games", "currentGame"}
    ensures s.id.Some? ==> Get(v, "id") == Num(s.id.value as real)
    ensures Get(v, "goal") == Num(s.goal as real)
    ensures Get(v, "ourTeam") == Str(s.ourTeam) && Get(v, "theirTeam") == Str(s.theirTeam)
    ensures Get(v, "games") == Arr(GameRecords(s.games))
    ensures Get(v, "currentGame").Null? <==> s.currentGame.None?
    ensures s.currentGame.Some? ==> Get(v, "currentGame") == Games.ToStruct(s.currentGame.value)
  {
    var fields := map[
      "goal" := Num(s.goal as real),
      "ourTeam" := Str(s.ourTeam),
      "theirTeam" := Str(s.theirTeam),
      "games" := Arr(GameRecords(s.games)),
      "currentGame" := if s.currentGame.Some? then Games.ToStruct(s.currentGame.value) else Null];
    match s.id
    case None => Obj(fields)
    case Some(id) => Obj(fields["id" := Num(id as real)])
  }

  /** Loading the `games` array: every entry goes through the game
      constructor in order, and the first entry that fails decides the
      error. */
  function LoadGames(items: seq<Value>): (res: Result<seq<Games.Game>>)
    ensures res.Ok? <==> forall i :: 0 <= i < |items| ==> Games.New(items[i]).Ok?
    ensures res.Ok? ==>
      |res.value| == |items| &&
      forall i :: 0 <= i < |items| ==> Games.New(items[i]) == Ok(res.value[i])
    ensures res.Err? ==>
      exists i :: 0 <= i < |items| && Games.New(items[i]) == Err(res.error) &&
        forall j :: 0 <= j < i ==> Games.New(items[j]).Ok?
  {
    LoadEach(items, Games.New)
  }

  /** The optional `id`: if the key is present at all, even holding
      `undefined`, it must be an integral number. */
  function LoadId(v: Value): (res: Result<Option<int>>)
    ensures !HasKey(v, "id") ==> res == Ok(None)
    ensures HasKey(v, "id") && !Get(v, "id").Num? ==> res == Err(TypeError)
    ensures HasKey(v, "id") && Get(v, "id").Num? && !IsInteger(Get(v, "id").n) ==> res == Err(RangeError)
    ensures HasKey(v, "id") && Get(v, "id").Num? && IsInteger(Get(v, "id").n) ==>
      res == Ok(Some(Get(v, "id").n.Floor))
    ensures res.Ok? && res.value.Some? ==> HasKey(v, "id") && Get(v, "id") == Num(res.value.value as real)
  {
    if !HasKey(v, "id") then Ok(None)
    else
      var id := Get(v, "id");
      if !id.Num? then Err(TypeError)
      else if !IsInteger(id.n) then Err(RangeError)
      else Ok(Some(id.n.Floor))
  }

  /** The loader's checks up to and including the optional id pass. */
  predicate IdPasses(v: Value) {
    IsObjectLike(v) && LoadId(v).Ok?
  }

  /** The loader's checks up to and including the goal pass. */
  predicate GoalPasses(v: Value) {
    IdPasses(v) && IsIntegerAtLeast(Get(v, "goal"), 1)
  }

  /** The loader's checks up to and including both labels pass. */
  predicate LabelsPass(v: Value) {
    GoalPasses(v) && Get(v, "ourTeam").Str? && Get(v, "theirTeam").Str?
  }

  /** The record has a `games` key holding an array. */
  predicate GamesArray(v: Value) {
    HasKey(v, "games") && Get(v, "games").Arr?
  }

  /** The per-field checks of `#fromStruct`, in the source's order: the
      optional id, the goal, both labels, then the `games` array, every
      entry of which must load as a game. */
  function Header(v: Value): (res: Result<Session>)
    ensures !IsObjectLike(v) ==> res == Err(TypeError)
    ensures IsObjectLike(v) && LoadId(v).Err? ==> res == Err(LoadId(v).error)
    ensures IdPasses(v) && !Get(v, "goal").Num? ==> res == Err(TypeError)
    ensures IdPasses(v) && Get(v, "goal").Num? && !IsIntegerAtLeast(Get(v, "goal"), 1) ==> res == Err(RangeError)
    ensures GoalPasses(v) && !Get(v, "ourTeam").Str? ==> res == Err(TypeError)
    ensures GoalPasses(v) && Get(v, "ourTeam").Str? && !Get(v, "theirTeam").Str? ==> res == Err(TypeError)
    ensures LabelsPass(v) && !GamesArray(v) ==> res == Err(TypeError)
    ensures LabelsPass(v) && GamesArray(v) && LoadGames(Get(v, "games").items).Err?
            ==> res == Err(LoadGames(Get(v, "games").items).error)
    ensures res.Ok? <==> LabelsPass(v) && GamesArray(v) && LoadGames(Get(v, "games").items).Ok?
    ensures res.Ok? ==>
      && LoadId(v) == Ok(res.value.id)
      && Get(v, "goal") == Num(res.value.goal as real)
      && Get(v, "ourTeam") == Str(res.value.ourTeam)
      && Get(v, "theirTeam") == Str(res.value.theirTeam)
      && LoadGames(Get(v, "games").items) == Ok(res.value.games)
      && res.value.currentGame.None?
  {
    if !IsObjectLike(v) then Err(TypeError)
    else
      var id :- LoadId(v);
      var goal := Get(v, "goal");
      if !goal.Num? then Err(TypeError)
      else if !IsInteger(goal.n) || goal.n < 1.0 then Err(RangeError)
      else
        var ours := Get(v, "ourTeam");
        var theirs := Get(v, "theirTeam");
        if !ours.Str? then Err(TypeError)
        else if !theirs.Str? then Err(TypeError)
        else if !HasKey(v, "games") then Err(TypeError)
        else if !Get(v, "games").Arr? then Err(TypeError)
        else
          var games :- LoadGames(Get(v, "games").items);
          Ok(Session(id, goal.n.Floor, ours.s, theirs.s, games, None))
  }

  /** `#fromStruct`: the per-field checks, then every past game must be
      finished (a plain Error), `currentGame` must be an object or null (a
      TypeError), and a live game must load and be unfinished (a plain
      Error). */
  function FromStruct(v: Value): (res: Result<Session>)
    ensures Header(v).Err? ==> res == Err(Header(v).error)
    ensures Header(v).Ok? && !AllDecided(Header(v).value.games) ==> res == Err(InvariantError)
    ensures Header(v).Ok? && AllDecided(Header(v).value.games) && !IsObjectLike(Get(v, "currentGame"))
            ==> res == Err(TypeError)
    ensures Header(v).Ok? && AllDecided(Header(v).value.games) && IsObjectLike(Get(v, "currentGame"))
            && !Get(v, "currentGame").Null? && Games.New(Get(v, "currentGame")).Err?
            ==> res == Err(Games.New(Get(v, "currentGame")).error)
    ensures res.Ok? ==> Storable(res.value)
    ensures res.Ok? ==> Header(v) == Ok(res.value.(currentGame := None))
    ensures res.Ok? ==> (res.value.id.Some? <==> HasKey(v, "id"))
    ensures res.Ok? ==> (res.value.currentGame.None? <==> Get(v, "currentGame").Null?)
    ensures res.Ok? && res.value.currentGame.Some? ==>
      Games.New(Get(v, "currentGame")) == Ok(res.value.currentGame.value)
  {
    var partial :- Header(v);
    if !AllDecided(partial.games) then Err(InvariantError)
    else
      LoadedHistoryIsStorable(v, partial);
      var current := Get(v, "currentGame");
      if !IsObjectLike(current) then Err(TypeError)
      else if current.Null? then Ok(partial)
      else
        var game :- Games.New(current);
        if Games.Decided(game) then Err(InvariantError)
        else Ok(partial.(currentGame := Some(game)))
  }

  /** Once the per-field checks pass, the loader raises a plain invariant
      Error exactly when a past game is unfinished, or the live game's
      record raises one itself or loads as a finished game; it succeeds
      exactly when every past game is finished and `currentGame` is null or
      loads as an unfinished game. */
  lemma LoadEnforcesFinishedHistory(v: Value, partial: Session)
    requires Header(v) == Ok(partial)
    ensures var cr := Get(v, "currentGame");
      FromStruct(v) == Err(InvariantError) <==>
        || !AllDecided(partial.games)
        || (IsObjectLike(cr) && !cr.Null? &&
            (Games.New(cr) == Err(InvariantError) || (Games.New(cr).Ok? && Games.Decided(Games.New(cr).value))))
    ensures var cr := Get(v, "currentGame");
      FromStruct(v).Ok? <==>
        && AllDecided(partial.games)
        && IsObjectLike(cr)
        && (cr.Null? || (Games.New(cr).Ok? && !Games.Decided(Games.New(cr).value)))
  {
  }

  /** A record whose past games include an unfinished one is rejected, not
      loaded with that game dropped: a bare goal such as `games: [5]` loads
      a fresh game, which is still undecided. */
  lemma UnfinishedPastGameIsRejected(v: Value, goal: real)
    requires LabelsPass(v) && GamesArray(v) && Get(v, "games").items == [Num(goal)] && goal >= 2.0
    ensures FromStruct(v) == Err(InvariantError)
  {
    var g := Games.Game(goal, [], Some(Rounds.Start(goal, goal)));
    Games.FreshGameIsLive(goal);
    assert Games.New(Num(goal)) == Ok(g);
    var loaded := LoadGames([Num(goal)]);
    assert loaded.Ok? && loaded.value[0] == g;
    assert loaded.value == [g];
    assert !AllDecided([g]);
  }

  /** Finished games that passed the per-field checks were loaded from
      records, so each of them is storable. */
  lemma LoadedHistoryIsStorable(v: Value, partial: Session)
    requires Header(v) == Ok(partial) && AllDecided(partial.games)
    ensures forall i :: 0 <= i < |partial.games| ==> Games.Storable(partial.games[i])
  {
    forall i | 0 <= i < |partial.games|
      ensures Games.Storable(partial.games[i])
    {
      FinishedGameWasLoaded(Get(v, "games").items[i], partial.games[i]);
    }
  }

  /** A decided game out of the `Game` constructor came from a record: a
      fresh game starts undecided. */
  lemma FinishedGameWasLoaded(v: Value, g: Games.Game)
    requires Games.New(v) == Ok(g) && Games.Decided(g)
    ensures Games.Storable(g)
  {
  }

  /** The finished games' records load back to the same games. */
  lemma GamesRoundTrip(games: seq<Games.Game>)
    requires forall i :: 0 <= i < |games| ==> Games.Storable(games[i])
    ensures LoadGames(GameRecords(games)) == Ok(games)
  {
    var items := GameRecords(games);
    forall i | 0 <= i < |items|
      ensures Games.New(items[i]) == Ok(games[i])
    {
      Games.RoundTrip(games[i]);
    }
    var loaded := LoadGames(items);
    assert loaded.Ok?;
    assert loaded.value == games;
  }

  /** The export of a storable session passes the per-field checks. */
  lemma HeaderOfExport(s: Session)
    requires Storable(s)
    ensures Header(ToStruct(s)) == Ok(s.(currentGame := None))
  {
    GamesRoundTrip(s.games);
    IdOfExport(s);
    assert (s.goal as real).Floor == s.goal;
  }

  /** The exported id loads back to the session's id. */
  lemma IdOfExport(s: Session)
    ensures LoadId(ToStruct(s)) == Ok(s.id)
  {
    if s.id.Some? {
      assert (s.id.value as real).Floor == s.id.value;
    }
  }

  /** Every storable session survives export and load unchanged: id, goal,
      labels, finished games and live game, and with them its result. */
  lemma RoundTrip(s: Session)
    requires Storable(s)
    ensures FromStruct(ToStruct(s)) == Ok(s)
    ensures New(ToStruct(s)) == Ok(s)
  {
    HeaderOfExport(s);
    if s.currentGame.Some? {
      Games.RoundTrip(s.currentGame.value);
    }
  }

  /** Load, export, load: a record with an id (version 2) or without one
      (version 1) re-exports to a record that loads to the same session,
      and the id key is present in the export exactly when it was in the
      record. */
  lemma ReloadIsStable(v: Value, s: Session)
    requires FromStruct(v) == Ok(s)
    ensures FromStruct(ToStruct(s)) == Ok(s)
    ensures HasKey(ToStruct(s), "id") <==> HasKey(v, "id")
  {
    RoundTrip(s);
  }
}

=== FILE: tally.dfy ===
/** The aggregation behind a game's result: a walk over the finished rounds
    in play order that adds each round's points to its winner and records the
    tailor, the winner of the first round after which one side has at least
    `goal - 2` points while the other still has none. */
module Tallies {
  import opened Results
  import opened Teams
  import opened RoundResults

  /** What a single round contributes to a team's total. */
  function Credit(rr: RoundResult, t: Team): real {
    if rr.winner == t then rr.points else 0.0
  }

  /** Reference definition of a team's total: the points of every round it
      won, summed from the first round on. */
  function PointsOf(rounds: seq<RoundResult>, t: Team): real
    decreases |rounds|
  {
    if |rounds| == 0 then 0.0 else Credit(rounds[0], t) + PointsOf(rounds[1..], t)
  }

  lemma {:induction false} PointsOfAppend(rounds: seq<RoundResult>, rr: RoundResult, t: Team)
    ensures PointsOf(rounds + [rr], t) == PointsOf(rounds, t) + Credit(rr, t)
    decreases |rounds|
  {
    if |rounds| > 0 {
      assert (rounds + [rr])[1..] == rounds[1..] + [rr];
      PointsOfAppend(rounds[1..], rr, t);
    }
  }

  /** One side has reached the tailor threshold while the other has nothing. */
  predicate TailorCondition(our: real, their: real, tailorGoal: real) {
    (our >= tailorGoal && their == 0.0) || (their >= tailorGoal && our == 0.0)
  }

  datatype Tally = Tally(ourPoints: real, theirPoints: real, tailor: Option<Team>)

  function Points(tally: Tally, t: Team): real {
    if t == We then tally.ourPoints else tally.theirPoints
  }

  /** The loop body of the game's result: credit the round, then record its
      winner as tailor if there is none yet and the threshold is met. */
  function Step(acc: Tally, rr: RoundResult, tailorGoal: real): (next: Tally)
    ensures forall t :: Points(next, t) == Points(acc, t) + Credit(rr, t)
    ensures acc.tailor.Some? ==> next.tailor == acc.tailor
  {
    var our := acc.ourPoints + Credit(rr, We);
    var their := acc.theirPoints + Credit(rr, They);
    var tailor :=
      if acc.tailor.None? && TailorCondition(our, their, tailorGoal) then Some(rr.winner)
      else acc.tailor;
    Tally(our, their, tailor)
  }

  /** The walk over the rounds in play order, defined on prefixes so that
      appending a round is one more step. Its totals agree with the
      reference sums. */
  function Scan(rounds: seq<RoundResult>, tailorGoal: real): (tally: Tally)
    ensures tally.ourPoints == PointsOf(rounds, We)
    ensures tally.theirPoints == PointsOf(rounds, They)
    decreases |rounds|
  {
    if |rounds| == 0 then Tally(0.0, 0.0, None)
    else
      var init := rounds[..|rounds| - 1];
      var last := rounds[|rounds| - 1];
      assert rounds == init + [last];
      PointsOfAppend(init, last, We);
      PointsOfAppend(init, last, They);
      Step(Scan(init, tailorGoal), last, tailorGoal)
  }

  lemma ScanAppend(rounds: seq<RoundResult>, rr: RoundResult, tailorGoal: real)
    ensures Scan(rounds + [rr], tailorGoal) == Step(Scan(rounds, tailorGoal), rr, tailorGoal)
  {
    assert (rounds + [rr])[..|rounds|] == rounds;
  }

  /** The threshold holds right after round `i` has been credited. */
  ghost predicate QualifiesAt(rounds: seq<RoundResult>, tailorGoal: real, i: int) {
    && 0 <= i < |rounds|
    && TailorCondition(PointsOf(rounds[..i + 1], We), PointsOf(rounds[..i + 1], They), tailorGoal)
  }

  /** Round `i` is the first one after which the threshold holds. */
  ghost predicate FirstQualifying(rounds: seq<RoundResult>, tailorGoal: real, i: int) {
    QualifiesAt(rounds, tailorGoal, i) && forall j :: 0 <= j < i ==> !QualifiesAt(rounds, tailorGoal, j)
  }

  /** Reference definition of the tailor: the winner of the first round
      after which the threshold holds. */
  ghost predicate TailoredBy(rounds: seq<RoundResult>, tailorGoal: real, t: Team) {
    exists i :: 0 <= i < |rounds| && FirstQualifying(rounds, tailorGoal, i) && rounds[i].winner == t
  }

  ghost predicate Untailored(rounds: seq<RoundResult>, tailorGoal: real) {
    forall i :: 0 <= i < |rounds| ==> !QualifiesAt(rounds, tailorGoal, i)
  }

  lemma QualifiesAtPrefix(rounds: seq<RoundResult>, rr: RoundResult, tailorGoal: real, i: int)
    requires 0 <= i < |rounds|
    ensures QualifiesAt(rounds + [rr], tailorGoal, i) <==> QualifiesAt(rounds, tailorGoal, i)
  {
    assert (rounds + [rr])[..i + 1] == rounds[..i + 1];
  }

  /** The walk records exactly the reference tailor: none when no round
      meets the threshold, otherwise the winner of the first that does. */
  lemma {:induction false} ScanFindsTailor(rounds: seq<RoundResult>, tailorGoal: real)
    ensures Scan(rounds, tailorGoal).tailor.None? <==> Untailored(rounds, tailorGoal)
    ensures forall t :: Scan(rounds, tailorGoal).tailor == Some(t) <==> TailoredBy(rounds, tailorGoal, t)
    decreases |rounds|
  {
    if |rounds| > 0 {
      var n := |rounds| - 1;
      var init := rounds[..n];
      var last := rounds[n];
      assert rounds == init + [last];
      ScanFindsTailor(init, tailorGoal);
      ScanAppend(init, last, tailorGoal);
      forall i | 0 <= i < n
        ensures QualifiesAt(rounds, tailorGoal, i) <==> QualifiesAt(init, tailorGoal, i)
      {
        QualifiesAtPrefix(init, last, tailorGoal, i);
      }
      assert rounds[..n + 1] == rounds;
      var acc := Scan(init, tailorGoal);
      var tally := Scan(rounds, tailorGoal);
      assert QualifiesAt(rounds, tailorGoal, n) <==> TailorCondition(tally.ourPoints, tally.theirPoints, tailorGoal);
      if acc.tailor.Some? {
        var t0 := acc.tailor.value;
        assert TailoredBy(init, tailorGoal, t0);
        var i0 :| 0 <= i0 < n && FirstQualifying(init, tailorGoal, i0) && init[i0].winner == t0;
        assert FirstQualifying(rounds, tailorGoal, i0);
        forall t | TailoredBy(rounds, tailorGoal, t)
          ensures t == t0
        {
          var i :| 0 <= i < |rounds| && FirstQualifying(rounds, tailorGoal, i) && rounds[i].winner == t;
          assert i == i0;
        }
      } else if QualifiesAt(rounds, tailorGoal, n) {
        assert FirstQualifying(rounds, tailorGoal, n);
        forall t | TailoredBy(rounds, tailorGoal, t)
          ensures t == last.winner
        {
          var i :| 0 <= i < |rounds| && FirstQualifying(rounds, tailorGoal, i) && rounds[i].winner == t;
          assert i == n;
        }
      } else {
        assert Untailored(rounds, tailorGoal);
      }
    }
  }
}

=== FILE: teams.dfy ===
/** The two sides of a game of Watten, and how records encode them. */
module Teams {
  import opened Json
  import opened Results

  /** The "we" team is the score keeper's side; "they" are the opponents. */
  datatype Team = We | They

  function Other(t: Team): (o: Team)
    ensures o != t
  {
    if t == We then They else We
  }

  /** Records store a team as its enum number: 1 for "we", 2 for "they". */
  function Encode(t: Team): (v: Value)
    ensures v.Num? && IsInteger(v.n)
    ensures t == We <==> v == Num(1.0)
  {
    if t == We then Num(1.0) else Num(2.0)
  }

  /** `Team.isTeam(v)`: strict equality with one of the two enum numbers. */
  predicate IsTeam(v: Value) {
    v == Num(1.0) || v == Num(2.0)
  }

  function Decode(v: Value): (t: Option<Team>)
    ensures t.Some? <==> IsTeam(v)
    ensures t.Some? ==> Encode(t.value) == v
  {
    if v == Num(1.0) then Some(We)
    else if v == Num(2.0) then Some(They)
    else None
  }

  /** A `?Team` field: `null` or a team. */
  function EncodeOptional(t: Option<Team>): (v: Value)
    ensures t.None? <==> v.Null?
    ensures t.Some? ==> v == Encode(t.value)
  {
    match t
    case None => Null
    case Some(team) => Encode(team)
  }

  lemma DecodeEncode(t: Team)
    ensures Decode(Encode(t)) == Some(t)
    ensures IsTeam(Encode(t))
  {
  }
}
